=== FILE: README.md ===
# RRULE values of the Ruby iCalendar library, in Dafny

This project models the `Icalendar::RRule` class of `lib/icalendar/rrule.rb`.
That class holds the recurrence-rule value of RFC 5545 (section 3.3.10) and
provides four operations:

- the constructor, which parses the property text with one regular expression per field;
- `to_ical`, which prints the rule back;
- `add_frequency_to_datetime`, which moves a date on by the rule's frequency;
- the two expansions `occurrences_of_event_starting` and `occurrences_of_event_between`, which clone an event at its repetitions.

The modules follow that structure:

- `Outcomes`: `Option`, `Result`, and `Run`. `Run` is the outcome of a fuel-bounded loop: `Done(value)` or `OutOfFuel`.
- `Strings`: the Ruby string behaviour the file relies on:
  - `Integer#to_s`;
  - the lenient `String#to_i`;
  - `String#split(",")`, which drops trailing empty fields;
  - `Array#join`.
- `Patterns`: leftmost-match search as `String#match` performs it, with one matcher per regular expression of the file. Ruby's `$` also matches before a line feed, and `.` does not cross one; the matchers keep both rules.
- `Calendar`: civil date-times in UTC on the proleptic Gregorian calendar:
  - `Instant` is seconds since 0000-01-01;
  - `DateTime + n` adds days;
  - `Time.utc` rolls a day past the end of a month over into the next month.
- `RRule`: the `Rule` and `Weekday` records, the parser `Parse`, and the printer `ToIcal`.
- `RoundTrip`: what `Parse` reads back from what `ToIcal` prints.
- `Occurrences`: `Step` (`add_frequency_to_datetime`) and the two expansions, as written.
- `Corrected`: the expansion with the four defects listed under Findings repaired, with the properties the code evidently aims at proved about it.

Each loop of the expansion takes a `fuel` argument and answers `OutOfFuel` when the fuel runs out. This is needed because the loop as written can run forever: MONTHLY repetitions cycle within one year. Lemmas state how much fuel suffices wherever the loop does end.

`occurrences_of_event_starting` adds its offsets 0, 1, 2, ... to the event start, a `DateTime`, so consecutive clones lie one day apart (rrule.rb:129). `Occurrences` models every expansion as written, including the four defects under Findings.

## Model

| member | source | states |
|---|---|---|
| Patterns.Search | lib/icalendar/rrule.rb:84-85 | `String#match` finds nothing exactly when no start position matches; otherwise it captures at the first position that does |
| Patterns.SearchAt | lib/icalendar/rrule.rb:89-90 | naming the first matching position determines what the search captures |
| Patterns.LazyFieldAt | lib/icalendar/rrule.rb:84 | `;KEY=(.*?)(;\|$)` matches at a position exactly when the text there starts with `;KEY=`; the capture is the text after `;KEY=` up to a field end, and it holds neither `;` nor a line feed |
| Patterns.LazyFieldAtComplete | lib/icalendar/rrule.rb:84 | every `;KEY=` followed by a `;`- and line-feed-free text and a field end is matched with exactly that text captured |
| Patterns.TakeLineUnique | lib/icalendar/rrule.rb:84 | `.*?` followed by `(;\|$)` takes exactly the text up to the first field end |
| Patterns.DigitsFieldAt | lib/icalendar/rrule.rb:89 | `;KEY=(\d+)(;\|$)` matches only where `;KEY=` is followed by a non-empty digit run and a field end, and it reads the value of that run |
| Patterns.DigitsFieldAtComplete | lib/icalendar/rrule.rb:89 | every `;KEY=` followed by a digit run and a field end is accepted, with the value of the run |
| Patterns.TakeLine | lib/icalendar/rrule.rb:84 | the lazy capture is a prefix that ends at a field end and holds neither `;` nor a line feed |
| Patterns.SearchLazyField | lib/icalendar/rrule.rb:84-85 | `value.match(/;KEY=(.*?)(;\|$)/)` finds something exactly when `;KEY=` occurs somewhere in the value, and captures what follows its first occurrence up to a field end |
| Patterns.SearchDigitsField | lib/icalendar/rrule.rb:89-90 | `value.match(/;KEY=(\d+)(;\|$)/)` finds something exactly when some `;KEY=` is followed by digits and a field end, and reads the value of such digits |
| RRule.Parse | lib/icalendar/rrule.rb:39-56 | the constructor fails with a missing frequency exactly when no `FREQ=` name occurs; a parsed rule keeps the original text, has a frequency, and every BYDAY position is `[+-]?\d*` text |
| RRule.ParseSucceeds | lib/icalendar/rrule.rb:39-56 | the constructor returns exactly when FREQ is found, the UNTIL text (if any) parses and every BYDAY token holds a weekday; the frequency kept is the one FREQ names |
| RRule.ParseBadUntil | lib/icalendar/rrule.rb:39-42 | it raises for UNTIL exactly when FREQ is found and `DateTime.parse` rejects the UNTIL text, and the error names that text |
| RRule.ParseBadWeekday | lib/icalendar/rrule.rb:39-48 | it raises for BYDAY exactly when FREQ is found, UNTIL parses and some BYDAY token holds no weekday, with the error of the first such token |
| RRule.ParsedOrigValue | lib/icalendar/rrule.rb:59-61 | `orig_value` of a parsed rule is the text it was parsed from |
| RRule.ParsePresence | lib/icalendar/rrule.rb:43-49 | a parsed rule has an UNTIL exactly when the text has an UNTIL field, and a BYDAY list exactly when it has a BYDAY field |
| RRule.FreqAtComplete | lib/icalendar/rrule.rb:41 | every `FREQ=` name is recognised as its own frequency, even with text after it |
| RRule.FreqAt | lib/icalendar/rrule.rb:41 | a frequency is found only where its `FREQ=` text stands |
| RRule.DayAt | lib/icalendar/rrule.rb:106 | the day alternation answers exactly the day whose code starts the text |
| RRule.WeekdayAt | lib/icalendar/rrule.rb:106 | a weekday match starts with its position text then its day code, and the position is `[+-]?\d*` |
| RRule.WeekdayAtComplete | lib/icalendar/rrule.rb:106 | every `[+-]?\d*` position followed by a day code matches as exactly that weekday |
| RRule.WkstAt | lib/icalendar/rrule.rb:116 | an accepted WKST is `;WKST=`, a day code and a field end |
| RRule.WkstAtComplete | lib/icalendar/rrule.rb:116 | every `;WKST=` followed by a day code and a field end is accepted as that day |
| RRule.UntilText | lib/icalendar/rrule.rb:83-86 | the UNTIL text is there exactly when `;UNTIL=` occurs; it is what follows the first `;UNTIL=` up to the next field end, and it holds neither `;` nor a line feed |
| RRule.IntVal | lib/icalendar/rrule.rb:88-91 | COUNT or INTERVAL is read exactly when some `;KEY=` is followed by digits and a field end, and its value is the number those digits denote |
| RRule.IntList | lib/icalendar/rrule.rb:93-100 | a list is read exactly when `;KEY=` occurs, with one element per comma-separated field, each that field converted by `to_i` |
| RRule.WeekStart | lib/icalendar/rrule.rb:115-122 | a week start is read only where `;WKST=` is followed by a day code and a field end, and every such text yields one |
| RRule.MapMatches | lib/icalendar/rrule.rb:105-108 | the token map yields one value per token, or fails at a token in the list that no position of matches |
| RRule.MapMatchesEach | lib/icalendar/rrule.rb:105-108 | each value of a successful map is the leftmost match of its token |
| RRule.MapMatchesOf | lib/icalendar/rrule.rb:105-108 | when every token's leftmost match is the given value, the map yields exactly those values |
| RRule.MapMatchesFails | lib/icalendar/rrule.rb:105-108 | the token map fails exactly when some token holds no match |
| RRule.MapMatchesFirstFailure | lib/icalendar/rrule.rb:105-108 | the token a failing map names is the first that holds no match |
| RRule.ParseWeekdays | lib/icalendar/rrule.rb:105-108 | the BYDAY tokens fail to parse exactly when one holds no weekday, naming such a token; every parsed weekday has a `[+-]?\d*` position |
| RRule.WeekdayList | lib/icalendar/rrule.rb:102-113 | `parse_weekday_list` raises exactly when a token of the BYDAY field holds no weekday, naming such a token; a list it returns has only well-formed positions |
| RRule.WeekdayText | lib/icalendar/rrule.rb:32-34 | `Weekday#to_s` is the position text followed by a two-letter day code |
| RRule.ToIcal | lib/icalendar/rrule.rb:63-81 | `to_ical` raises for an unset frequency and, only then, for UNTIL together with COUNT; otherwise the text starts with `FREQ=` and the frequency name |
| RoundTrip.ToIcalPrints | lib/icalendar/rrule.rb:63-80 | for every rule `to_ical` does not reject, whatever its field values, the printed text is `FREQ=` and the name followed by `;KEY=value` for each set field, in the order UNTIL, COUNT, INTERVAL, the BY-lists, WKST |
| RoundTrip.WeekdayReparses | lib/icalendar/rrule.rb:106-107 | the text `Weekday#to_s` prints matches back as the same weekday |
| RoundTrip.WeekdaysReparse | lib/icalendar/rrule.rb:102-113 | splitting the comma-joined BYDAY texts and matching each gives back the same weekdays |
| RoundTrip.ReparseFrequency | lib/icalendar/rrule.rb:41 | the FREQ pattern finds in a printed rule the frequency it was printed from |
| RoundTrip.ReparseCount | lib/icalendar/rrule.rb:88-91 | COUNT and INTERVAL read back from a printed rule as the numbers printed, absent when unset |
| RoundTrip.ReparseWkst | lib/icalendar/rrule.rb:115-122 | WKST reads back from a printed rule as the day printed, absent when unset |
| RoundTrip.ReparseByDay | lib/icalendar/rrule.rb:102-113 | the BYDAY list reads back from a printed rule unchanged, absent when unset |
| RoundTrip.ReparseUntil | lib/icalendar/rrule.rb:83-86 | the UNTIL text read back is the text `to_ical` printed for the date, and the date parser accepts it |
| RoundTrip.ReparseLists | lib/icalendar/rrule.rb:93-100 | each integer BY-list is present after reading back exactly when it was printed |
| RoundTrip.ReparsePrinted | lib/icalendar/rrule.rb:39-81 | parsing a printable rule's `to_ical` succeeds and gives the same frequency, COUNT, INTERVAL, BYDAY and WKST, and the same presence of UNTIL and of every BY-list |
| RoundTrip.ParsePrintParse | lib/icalendar/rrule.rb:39-81 | parse, print and parse again keeps frequency, COUNT, INTERVAL, BYDAY and WKST |
| RoundTrip.SearchEntries | lib/icalendar/rrule.rb:84-91 | a `;`-led pattern searched over the printed fields finds what it finds at the first field it matches |
| RoundTrip.KeyPrefix | lib/icalendar/rrule.rb:84 | a `;KEY=` literal matches at a printed field exactly when the field has that key |
| RoundTrip.IntListOfJoin | lib/icalendar/rrule.rb:93-100 | `parse_int_list` reads back any list of integers written in decimal and joined with commas |
| Strings.ToIOfIntToString | lib/icalendar/rrule.rb:90 | `to_i` inverts `Integer#to_s` on every integer |
| Strings.ToIOfDigits | lib/icalendar/rrule.rb:90 | `to_i` of a run of digits is its decimal value |
| Strings.SplitOfJoin | lib/icalendar/rrule.rb:96 | `split(",")` undoes `join(",")` when no part is empty or holds a comma |
| Strings.FieldsOfJoin | lib/icalendar/rrule.rb:105 | the fields of a joined text are the parts joined |
| Strings.NatToString | lib/icalendar/rrule.rb:68 | `Integer#to_s` prints digits denoting the number, without a leading zero: only 0 prints as a text that starts with `0`, and it prints as `0` |
| Calendar.CivilTime | lib/icalendar/rrule.rb:191 | `Time.utc` keeps year and time of day and lands on the day number of the given day, rolled over into the next month if the month is short |
| Calendar.AddDays | lib/icalendar/rrule.rb:185-187 | adding `n` days keeps the time of day and moves the instant on by `n` times 86400 seconds |
| Calendar.AddSeconds | lib/icalendar/rrule.rb:178-183 | adding `n` seconds moves the instant on by `n` |
| Calendar.NextDay | lib/icalendar/rrule.rb:129 | the next calendar day lies 86400 seconds later at the same time of day |
| Occurrences.WrapMonth | lib/icalendar/rrule.rb:189-190 | the wrapped month lies in 1..12 and is congruent to the sum modulo 12 |
| Occurrences.Step | lib/icalendar/rrule.rb:176-195 | a step gives a valid date; DAILY, WEEKLY, MONTHLY and YEARLY keep the time of day, and MONTHLY keeps the year |
| Occurrences.StepCalendar | lib/icalendar/rrule.rb:188-193 | MONTHLY lands on the same day of month `m + times` wrapped into 1..12 of the same year; YEARLY on the same day `times` years later |
| Occurrences.StepFixed | lib/icalendar/rrule.rb:178-187 | SECONDLY to WEEKLY move the instant on by exactly `times` steps of 1, 60, 3600, 86400 or 604800 seconds |
| Occurrences.StepAdvances | lib/icalendar/rrule.rb:176-195 | every frequency but MONTHLY moves strictly forward |
| Occurrences.MonthlyStepsBack | lib/icalendar/rrule.rb:189-191 | a MONTHLY step from December lands on January of the same year, earlier on the time line |
| Occurrences.IterateNext | lib/icalendar/rrule.rb:146-147 | the repetition after `k` steps is one more step from the `k`-th |
| Occurrences.IterateFixed | lib/icalendar/rrule.rb:146-147 | after `k` single steps a fixed-length frequency has moved on by `k` steps of its length |
| Occurrences.IterateKeepsDistance | lib/icalendar/rrule.rb:146-147 | start and end stepped alike stay the same distance apart under fixed-length frequencies |
| Occurrences.IterateMonthlyKeepsYear | lib/icalendar/rrule.rb:189-191 | any number of MONTHLY steps stays within the year it started in |
| Occurrences.RepeatsIncrease | lib/icalendar/rrule.rb:166-167 | outside MONTHLY the repetitions of a start strictly increase |
| Occurrences.MonthlyRepeatsWithinYear | lib/icalendar/rrule.rb:141-148 | every MONTHLY repetition lies at or before any bound past the end of its year |
| Occurrences.OccurrencesOfEventStarting | lib/icalendar/rrule.rb:125-132 | there are exactly COUNT clones, the `i`-th starting `i` days after the event at the same time of day and keeping the event's end and details; no COUNT gives a failure |
| Occurrences.StartingDayByDay | lib/icalendar/rrule.rb:127-130 | consecutive clones start on consecutive calendar days |
| Occurrences.Cutoff | lib/icalendar/rrule.rb:155-162 | the cutoff is UNTIL if set, else COUNT steps from the start, else 126230400 days after the start |
| Occurrences.FirstIndex | lib/icalendar/rrule.rb:163-173 | a start inside the window is answered at once; any repetition found lies inside the window |
| Occurrences.FirstStartOfEventBetween | lib/icalendar/rrule.rb:153-174 | the event start is answered when it lies in the window; any start answered lies in the window |
| Occurrences.SearchLoop | lib/icalendar/rrule.rb:166-171 | a repetition the loop returns comes after the one it started from and lies in the window |
| Occurrences.SearchLoopFirst | lib/icalendar/rrule.rb:166-171 | the repetition the loop answers is the first after its start to lie in the window; every one it passed lay between the window start and the cutoff |
| Occurrences.SearchLoopNone | lib/icalendar/rrule.rb:166-173 | the loop answers nothing when it reaches a repetition outside the window start to the cutoff before any repetition after its start enters the window |
| Occurrences.SearchNeverSteps | lib/icalendar/rrule.rb:166-171 | over increasing repetitions, a start outside the window is never stepped into it |
| Occurrences.SearchEnds | lib/icalendar/rrule.rb:166-171 | over increasing repetitions the loop ends within as many rounds as seconds lie before the cutoff |
| Occurrences.FirstStartIsEventStart | lib/icalendar/rrule.rb:153-174 | outside MONTHLY, the only start ever answered is the event's own start |
| Occurrences.OccurrencesOfEventBetween | lib/icalendar/rrule.rb:134-150 | the first occurrence starts inside the window and keeps the event's unstepped end |
| Occurrences.OccurrencesPairs | lib/icalendar/rrule.rb:134-150 | occurrence `m` pairs start repetition `k + m` with end repetition `m`, where `k` is the repetition the search found, and starts at or before the window end |
| Occurrences.Generate | lib/icalendar/rrule.rb:141-148 | the loop makes a clone exactly when the current start lies at or before the window end, and the first clone pairs the current start with the current end |
| Occurrences.ExpandFromPairs | lib/icalendar/rrule.rb:141-148 | the loop's `m`-th clone takes the `m`-th start after the found one and the `m`-th end |
| Occurrences.GeneratePairs | lib/icalendar/rrule.rb:141-148 | each clone of the loop takes its own start and end repetition and starts at or before the window end |
| Occurrences.GenerateStops | lib/icalendar/rrule.rb:141 | the loop stops at the first start repetition after the window end |
| Occurrences.GenerateEnds | lib/icalendar/rrule.rb:141-148 | over increasing repetitions the loop ends within as many rounds as seconds remain to the window end |
| Occurrences.GenerateAll | lib/icalendar/rrule.rb:141-148 | from the first repetition, the clones are the repetitions up to the window end, each paired with the same-numbered end |
| Occurrences.OccurrencesFromStart | lib/icalendar/rrule.rb:134-150 | outside MONTHLY, with the start inside the window, the occurrences are the `m`-step repetitions of start and end up to the window end, and no more |
| Occurrences.MissedUnlessStartInWindow | lib/icalendar/rrule.rb:163-172 | outside MONTHLY, an event whose start lies outside the window yields no occurrence at all |
| Occurrences.MonthlyGenerationNeverEnds | lib/icalendar/rrule.rb:141-148 | with a window ending after the event's year, the MONTHLY loop never ends |
| Corrected.CarryMonth | lib/icalendar/rrule.rb:189-190 | month `n` counted from a year is month `(n - 1) % 12 + 1` of that year plus `(n - 1) / 12` |
| Corrected.StepCarried | lib/icalendar/rrule.rb:188-191 | the carried step agrees with `Step` outside MONTHLY and keeps the time of day in MONTHLY |
| Corrected.MonthlyCarried | lib/icalendar/rrule.rb:189-191 | a carried MONTHLY step lands on the same day of the month `times` months on, in the year the months carry into |
| Corrected.CarryWithinYear | lib/icalendar/rrule.rb:189-191 | within the year, the carry changes nothing |
| Corrected.StepCarriedAdvances | lib/icalendar/rrule.rb:176-195 | with the carry every frequency moves strictly forward |
| Corrected.IterateCarriedAgrees | lib/icalendar/rrule.rb:146-147 | outside MONTHLY the carried repetitions are the repetitions as written |
| Corrected.RepeatsCarriedIncrease | lib/icalendar/rrule.rb:166-167 | the carried repetitions strictly increase for every frequency |
| Corrected.CutoffCorrected | lib/icalendar/rrule.rb:155-162 | the fallback cutoff lies 126230400 seconds, about four years, after the start |
| Corrected.SearchCorrected | lib/icalendar/rrule.rb:166-171 | a repetition the repaired search returns lies in the window |
| Corrected.SearchCorrectedFirst | lib/icalendar/rrule.rb:166-171 | every repetition the repaired search passes lies outside the window and at or before the cutoff |
| Corrected.SearchCorrectedNone | lib/icalendar/rrule.rb:166-171 | when the repaired search finds nothing, every repetition in the window lies past the cutoff |
| Corrected.SearchCorrectedEnds | lib/icalendar/rrule.rb:166-171 | the repaired search ends within as many rounds as seconds lie before the cutoff |
| Corrected.OccurrencesCorrected | lib/icalendar/rrule.rb:134-150 | the first repaired occurrence starts inside the window |
| Corrected.OccurrencesCorrectedComplete | lib/icalendar/rrule.rb:134-174 | given fuel past the cutoff and the window end, a repetition inside the window and at or before the cutoff guarantees at least one occurrence |
| Corrected.OccurrencesCorrectedPairs | lib/icalendar/rrule.rb:136-147 | occurrence `m` pairs start and end repetitions of the same number `k + m`, where `k` is the first repetition in the window |
| Corrected.OccurrencesCorrectedKeepDuration | lib/icalendar/rrule.rb:136-147 | under fixed-length frequencies every occurrence lasts as long as the event |
| Corrected.DailyWindowMissed | lib/icalendar/rrule.rb:166 | a DAILY event starting before the window yields no occurrence for any fuel, though a repetition lies in the window |
| Corrected.DailyWindowFound | lib/icalendar/rrule.rb:166 | the repaired expansion finds an occurrence of that same event in that window |
| Corrected.MonthlyFirstEndUnstepped | lib/icalendar/rrule.rb:136 | a December MONTHLY event seen through a January window yields a clone from 15 January to 15 December |
| Corrected.MonthlyNeverEnds | lib/icalendar/rrule.rb:189-191 | the MONTHLY expansion of a March event over a window to the next new year runs out of any fuel |
| Corrected.CutoffInDays | lib/icalendar/rrule.rb:161 | the fallback cutoff as written lies over 345000 years after the start; the repaired one lies 4 times 365.25 days after it |

## Left out

- Floating point: SECONDLY, MINUTELY and HOURLY add `times/86400.0` days and the like, which are floats. The model steps by exact seconds.
- Time zones and `to_datetime`: every date is a UTC civil date-time, and `to_datetime` is the identity.
- Calendars before 1582: Ruby's `DateTime` counts dates before the Gregorian reform on the Julian calendar. The model uses the proleptic Gregorian calendar throughout.
- Foreign calls: `DateTime.parse`, `DateTime#to_ical` and the `Array#to_s` that prints the integer BY-lists lie outside the file. They are the parameters `parseDate`, `renderDate` and `renderList`.
- `String#to_i` radix prefixes: the optional `0d` prefix is not modelled. Every other part is: leading blanks, one sign, digits with single underscores between them.
- Setters and the `params`/`name` constructor arguments:
  - a `Rule` is any value of the record type, which covers setters that assign values of the kinds the constructor produces;
  - setter values that are not representable:
    - a frequency other than the seven names;
    - a negative COUNT or INTERVAL;
    - a WKST other than the seven day codes, which rrule.rb:79 prints as it is;
    - BY-list keys other than the nine the constructor inserts;
    - a `by_list` hash whose keys come in another order: rrule.rb:70 prints them in insertion order, while `RRule.Entries` always prints them in the constructor's order;
    - `by_list = nil`, for which rrule.rb:70 raises;
    - BYDAY entries that are not `Weekday` values, such as strings, which rrule.rb:73 joins as they are;
    - values of other Ruby types in any field;
  - `name` and `params` are unused by the code.
- Unset frequency in `occurrences_of_event_between`: the model requires a frequency. In Ruby `add_frequency_to_datetime` then returns `nil`. The method then returns no occurrence in two cases. The first is an event that starts before the window: `between?` fails on its first comparison (rrule.rb:166). The second is an event that starts after the window while UNTIL lies before its start: `between?` fails on its second comparison. In every other case it raises on a comparison with `nil`. `occurrences_of_event_starting` does not read the frequency, and its model does not require one.
- An event without DTEND: it is not representable. Ruby raises for one at rrule.rb:136.
- Occurrences.OccurrencesOfEventStarting: with COUNT unset it answers a failure. Ruby before 2.6 raises for `0...nil`. From 2.6 on that is an endless range, and the `map` at rrule.rb:127 never returns.
- The `datetime` argument of `occurrences_of_event_starting`: it is unused by the code.
- INTERVAL and the BY-lists: the expansions ignore them, as the code does.
- Fuel: every expansion loop takes a `fuel` bound. A run that needs more answers `OutOfFuel`, so runs longer than the bound are not modelled; lemmas give bounds that suffice when the loop ends.
- RoundTrip.ReparseLists: states only that each integer BY-list is present or absent alike after reading back. The numbers depend on what `Array#to_s` prints, which is a parameter.
- RoundTrip.ReparsePrinted: states the same presence only for UNTIL and the integer BY-lists, for the same reason. The UNTIL value depends on `DateTime#to_ical` and `DateTime.parse`.
- RoundTrip.ParsePrintParse: for the same reasons, it does not compare UNTIL or the integer BY-lists.

## Findings

| source | as written | input that shows it | evidently intended | confidence | as-written member | corrected member |
|---|---|---|---|---|---|---|
| lib/icalendar/rrule.rb:166 | the search loop runs only while the current start lies between the window start and the cutoff, so a start before the window is never stepped | DAILY event from 2020-01-01 10:00, window 2020-01-06 to 2020-01-09: the repetition on 6 January lies in the window, yet nothing is found | step while the current start lies at or before the cutoff | high; not executed | Corrected.DailyWindowMissed | Corrected.DailyWindowFound |
| lib/icalendar/rrule.rb:136 | the end of the first clone is the event's own end, even when the search stepped the start `k` times | MONTHLY until 2021-12-31, event 2020-12-15 10:00 to 11:00, window January 2020: the one clone runs from 15 January to 15 December | step the end as many times as the start, so that every clone keeps the event's duration | high; not executed | Corrected.MonthlyFirstEndUnstepped | Corrected.OccurrencesCorrectedPairs |
| lib/icalendar/rrule.rb:189-191 | MONTHLY wraps the month into 1..12 but keeps the year, so repetitions cycle within one year | MONTHLY event 2020-03-15 10:00, window to 2021-01-01: the loop never passes the window end | carry the year when the month passes December | high; not executed | Corrected.MonthlyNeverEnds | Corrected.StepCarriedAdvances |
| lib/icalendar/rrule.rb:161 | `current_time + 126230400` on a `DateTime` adds 126230400 days | any rule with neither UNTIL nor COUNT: the cutoff lies over 345000 years after the start | 126230400 seconds, the four years of 365.25 days the comment names | high; not executed | Corrected.CutoffInDays | Corrected.CutoffCorrected |

=== FILE: calendar.dfy ===
/** Civil date-times in the proleptic Gregorian calendar, in UTC, with whole
    seconds: the values rrule.rb compares, steps by days and rebuilds with
    `Time.utc`. */
module Calendar {

  datatype DateTime = DateTime(year: int, month: int, day: int, hour: int, minute: int, second: int)

  predicate IsLeapYear(y: int) {
    y % 4 == 0 && (y % 100 != 0 || y % 400 == 0)
  }

  function DaysInMonth(y: int, m: int): (n: int)
    requires 1 <= m <= 12
    ensures 28 <= n <= 31
  {
    if m == 2 then (if IsLeapYear(y) then 29 else 28)
    else if m == 4 || m == 6 || m == 9 || m == 11 then 30
    else 31
  }

  function DaysInYear(y: int): int {
    if IsLeapYear(y) then 366 else 365
  }

  /** A date-time that exists on the calendar. */
  predicate Valid(d: DateTime) {
    && 1 <= d.month <= 12
    && 1 <= d.day <= DaysInMonth(d.year, d.month)
    && 0 <= d.hour < 24
    && 0 <= d.minute < 60
    && 0 <= d.second < 60
  }

  predicate SameTimeOfDay(a: DateTime, b: DateTime) {
    a.hour == b.hour && a.minute == b.minute && a.second == b.second
  }

  // ---------------------------------------------------------------------------
  // Counting days and seconds

  /** Days from 1 January of year 0 to 1 January of year `y`. */
  function DaysBeforeYear(y: int): int {
    365 * y + (y + 3) / 4 - (y + 99) / 100 + (y + 399) / 400
  }

  /** Days from 1 January of year `y` to the first day of month `m`. */
  function DaysBeforeMonth(y: int, m: int): int
    requires 1 <= m <= 12
  {
    if m == 1 then 0 else DaysBeforeMonth(y, m - 1) + DaysInMonth(y, m - 1)
  }

  /** Days from 1 January of year 0 to the given day; days past the end of the
      month simply count on into the following months. */
  function DayNumber(y: int, m: int, d: int): int
    requires 1 <= m <= 12
  {
    DaysBeforeYear(y) + DaysBeforeMonth(y, m) + d - 1
  }

  /** Seconds since 0000-01-01T00:00:00: the point on the time line that
      `DateTime#<=>` compares. */
  function Instant(d: DateTime): int
    requires 1 <= d.month <= 12
  {
    DayNumber(d.year, d.month, d.day) * 86400 + d.hour * 3600 + d.minute * 60 + d.second
  }

  /** `a <= b` on the time line. */
  predicate AtOrBefore(a: DateTime, b: DateTime)
    requires Valid(a) && Valid(b)
  {
    Instant(a) <= Instant(b)
  }

  /** `d.between?(lo, hi)`: both ends inclusive. */
  predicate Between(d: DateTime, lo: DateTime, hi: DateTime)
    requires Valid(d) && Valid(lo) && Valid(hi)
  {
    AtOrBefore(lo, d) && AtOrBefore(d, hi)
  }

  lemma DivStep4(y: int)
    ensures (y + 4) / 4 == (y + 3) / 4 + (if y % 4 == 0 then 1 else 0)
  {
    var q, r := y / 4, y % 4;
    assert y == 4 * q + r && 0 <= r < 4;
    assert (y + 4) / 4 == q + 1;
    assert (y + 3) / 4 == if r == 0 then q else q + 1;
  }

  lemma DivStep100(y: int)
    ensures (y + 100) / 100 == (y + 99) / 100 + (if y % 100 == 0 then 1 else 0)
  {
    var q, r := y / 100, y % 100;
    assert y == 100 * q + r && 0 <= r < 100;
    assert (y + 100) / 100 == q + 1;
    assert (y + 99) / 100 == if r == 0 then q else q + 1;
  }

  lemma DivStep400(y: int)
    ensures (y + 400) / 400 == (y + 399) / 400 + (if y % 400 == 0 then 1 else 0)
  {
    var q, r := y / 400, y % 400;
    assert y == 400 * q + r && 0 <= r < 400;
    assert (y + 400) / 400 == q + 1;
    assert (y + 399) / 400 == if r == 0 then q else q + 1;
  }

  lemma LeapDivisibility(y: int)
    ensures y % 100 == 0 ==> y % 4 == 0
    ensures y % 400 == 0 ==> y % 100 == 0
  {
    if y % 100 == 0 {
      CenturyMultiple(y / 100, 4);
    }
    if y % 400 == 0 {
      CenturyMultiple(y / 400, 100);
    }
  }

  /** A multiple of 100, or of 400, is one of 4, or of 100. */
  lemma CenturyMultiple(q: int, k: int)
    requires k == 4 || k == 100
    ensures k == 4 ==> (100 * q) % k == 0
    ensures k == 100 ==> (400 * q) % k == 0
  {
    if k == 4 {
      assert 100 * q == 4 * (25 * q);
    } else {
      assert 400 * q == 100 * (4 * q);
    }
  }

  lemma YearLength(y: int)
    ensures DaysBeforeYear(y + 1) == DaysBeforeYear(y) + DaysInYear(y)
  {
    DivStep4(y);
    DivStep100(y);
    DivStep400(y);
    LeapDivisibility(y);
  }

  lemma MonthsFillYear(y: int)
    ensures DaysBeforeMonth(y, 12) + DaysInMonth(y, 12) == DaysInYear(y)
  {
    assert DaysBeforeMonth(y, 2) == 31;
    assert DaysBeforeMonth(y, 3) == 31 + DaysInMonth(y, 2);
    assert DaysBeforeMonth(y, 4) == 62 + DaysInMonth(y, 2);
    assert DaysBeforeMonth(y, 5) == 92 + DaysInMonth(y, 2);
    assert DaysBeforeMonth(y, 6) == 123 + DaysInMonth(y, 2);
    assert DaysBeforeMonth(y, 7) == 153 + DaysInMonth(y, 2);
    assert DaysBeforeMonth(y, 8) == 184 + DaysInMonth(y, 2);
    assert DaysBeforeMonth(y, 9) == 215 + DaysInMonth(y, 2);
    assert DaysBeforeMonth(y, 10) == 245 + DaysInMonth(y, 2);
    assert DaysBeforeMonth(y, 11) == 276 + DaysInMonth(y, 2);
    assert DaysBeforeMonth(y, 12) == 306 + DaysInMonth(y, 2);
  }

  /** Moving a date on by one day (for equal times of day) moves the time line
      on by 86400 seconds, across month and year ends. */
  lemma NextDayNumber(y: int, m: int, d: int)
    requires 1 <= m <= 12 && 1 <= d <= DaysInMonth(y, m)
    ensures d < DaysInMonth(y, m) ==> DayNumber(y, m, d + 1) == DayNumber(y, m, d) + 1
    ensures d == DaysInMonth(y, m) && m < 12 ==> DayNumber(y, m + 1, 1) == DayNumber(y, m, d) + 1
    ensures d == DaysInMonth(y, m) && m == 12 ==> DayNumber(y + 1, 1, 1) == DayNumber(y, m, d) + 1
  {
    if d == DaysInMonth(y, m) && m == 12 {
      YearLength(y);
      MonthsFillYear(y);
    }
  }

  // ---------------------------------------------------------------------------
  // Moving along the time line

  /** The same time of day on the following calendar day. */
  function NextDay(d: DateTime): (r: DateTime)
    requires Valid(d)
    ensures Valid(r) && SameTimeOfDay(r, d)
    ensures Instant(r) == Instant(d) + 86400
  {
    NextDayNumber(d.year, d.month, d.day);
    if d.day < DaysInMonth(d.year, d.month) then d.(day := d.day + 1)
    else if d.month < 12 then d.(month := d.month + 1, day := 1)
    else d.(year := d.year + 1, month := 1, day := 1)
  }

  /** One second later. */
  function NextSecond(d: DateTime): (r: DateTime)
    requires Valid(d)
    ensures Valid(r)
    ensures Instant(r) == Instant(d) + 1
  {
    if d.second < 59 then d.(second := d.second + 1)
    else if d.minute < 59 then d.(minute := d.minute + 1, second := 0)
    else if d.hour < 23 then d.(hour := d.hour + 1, minute := 0, second := 0)
    else NextDay(d).(hour := 0, minute := 0, second := 0)
  }

  /** `d + n` for a `DateTime` and an integer: `n` whole days later. */
  function AddDays(d: DateTime, n: nat): (r: DateTime)
    requires Valid(d)
    ensures Valid(r) && SameTimeOfDay(r, d)
    ensures Instant(r) == Instant(d) + 86400 * n
    decreases n, d
  {
    if n == 0 then d else AddDays(NextDay(d), n - 1)
  }

  /** `n` seconds later. */
  function AddSeconds(d: DateTime, n: nat): (r: DateTime)
    requires Valid(d)
    ensures Valid(r)
    ensures Instant(r) == Instant(d) + n
    decreases n, d
  {
    if n == 0 then d else AddSeconds(NextSecond(d), n - 1)
  }

  /** `Time.utc(y, m, day, h, mi, s)`: a day of month past the end of month `m`
      (up to 31) rolls over into the following month, so 30 February is
      1 or 2 March. December has 31 days, so the year never changes. */
  function CivilTime(y: int, m: int, day: int, h: int, mi: int, s: int): (r: DateTime)
    requires 1 <= m <= 12 && 1 <= day <= 31
    requires 0 <= h < 24 && 0 <= mi < 60 && 0 <= s < 60
    ensures Valid(r) && r.year == y && r.hour == h && r.minute == mi && r.second == s
    ensures Instant(r) == DayNumber(y, m, day) * 86400 + h * 3600 + mi * 60 + s
    ensures day <= DaysInMonth(y, m) ==> r == DateTime(y, m, day, h, mi, s)
  {
    var last := DaysInMonth(y, m);
    if day <= last then DateTime(y, m, day, h, mi, s)
    else DateTime(y, m + 1, day - last, h, mi, s)
  }

  /** Seconds since midnight. */
  function TimeOfDay(d: DateTime): int {
    d.hour * 3600 + d.minute * 60 + d.second
  }

  // ---------------------------------------------------------------------------
  // Order of days

  lemma {:induction false} DaysBeforeYearMonotone(a: int, b: int)
    requires a <= b
    ensures DaysBeforeYear(a) + 365 * (b - a) <= DaysBeforeYear(b)
    decreases b - a
  {
    if a < b {
      DaysBeforeYearMonotone(a, b - 1);
      YearLength(b - 1);
    }
  }

  /** A later month of the same year starts at least 28 days later. */
  lemma {:induction false} DaysBeforeMonthMonotone(y: int, m: int, n: int)
    requires 1 <= m <= n <= 12
    ensures DaysBeforeMonth(y, m) + 28 * (n - m) <= DaysBeforeMonth(y, n)
    decreases n - m
  {
    if m < n {
      DaysBeforeMonthMonotone(y, m, n - 1);
    }
  }

  /** Months of two years differ only by the length of February. */
  lemma {:induction false} DaysBeforeMonthYears(y: int, z: int, m: int)
    requires 1 <= m <= 12
    ensures m <= 2 ==> DaysBeforeMonth(y, m) == DaysBeforeMonth(z, m)
    ensures m > 2 ==> DaysBeforeMonth(y, m) - DaysBeforeMonth(z, m) == DaysInMonth(y, 2) - DaysInMonth(z, 2)
  {
    if m > 1 {
      DaysBeforeMonthYears(y, z, m - 1);
    }
  }

  /** Every day of year `y` comes before the first day of year `y + 1`. */
  lemma DayNumberWithinYear(y: int, m: int, d: int)
    requires 1 <= m <= 12 && 1 <= d <= DaysInMonth(y, m)
    ensures DaysBeforeYear(y) <= DayNumber(y, m, d) < DaysBeforeYear(y + 1)
  {
    YearLength(y);
    MonthsFillYear(y);
    DaysBeforeMonthMonotone(y, 1, m);
    if m < 12 {
      DaysBeforeMonthMonotone(y, m + 1, 12);
      assert DaysBeforeMonth(y, m + 1) == DaysBeforeMonth(y, m) + DaysInMonth(y, m);
    }
  }

  /** The same month and day of month `t` years later lie at least 364
      days per year later. */
  lemma YearsLater(y: int, t: nat, m: int, d: int)
    requires 1 <= m <= 12
    ensures DayNumber(y, m, d) + 364 * t <= DayNumber(y + t, m, d)
  {
    DaysBeforeYearMonotone(y, y + t);
    DaysBeforeMonthYears(y + t, y, m);
  }

  /** A valid date-time lies before the first instant of the next year. */
  lemma InstantBeforeNextYear(d: DateTime)
    requires Valid(d)
    ensures DaysBeforeYear(d.year) * 86400 <= Instant(d) < DaysBeforeYear(d.year + 1) * 86400
  {
    DayNumberWithinYear(d.year, d.month, d.day);
  }
}

=== FILE: corrected.dfy ===
/** The expansion of rrule.rb as its code evidently means it, next to
    concrete inputs on which the code as written departs from that:
    - the search loop runs while the start is at or before the cutoff, so it
      steps a start that lies before the window into it;
    - MONTHLY carries whole years, so every frequency moves forward;
    - the default cutoff is four years (126230400 seconds) after the start;
    - the end of the first occurrence is stepped as often as its start. */
module Corrected {
  import opened Outcomes
  import opened Calendar
  import opened RRule
  import opened Occurrences

  // ---------------------------------------------------------------------------
  // Stepping with a year carry

  /** Month `n` of year `y`, counting on past December into the following
      years: the year and the month of the calendar it names. */
  function CarryMonth(y: int, n: nat): (ym: (int, int))
    requires n >= 1
    ensures 1 <= ym.1 <= 12 && y <= ym.0
    ensures ym == (y + (n - 1) / 12, (n - 1) % 12 + 1)
    decreases n
  {
    if n <= 12 then (y, n) else CarryMonth(y + 1, n - 12)
  }

  /** `add_frequency_to_datetime` with MONTHLY carrying whole years: month
      `m + times` of year `y` is month `(m - 1 + times) % 12 + 1` of year
      `y + (m - 1 + times) / 12`. The other frequencies step as written. */
  function StepCarried(f: Frequency, d: DateTime, times: nat): (r: DateTime)
    requires Valid(d)
    ensures Valid(r)
    ensures f != Monthly ==> r == Step(f, d, times)
    ensures f == Monthly ==> SameTimeOfDay(r, d)
    ensures f == Monthly ==>
      var ym := CarryMonth(d.year, d.month + times);
      Instant(r) == DayNumber(ym.0, ym.1, d.day) * 86400 + TimeOfDay(d)
  {
    if f == Monthly then
      var ym := CarryMonth(d.year, d.month + times);
      CivilTime(ym.0, ym.1, d.day, d.hour, d.minute, d.second)
    else Step(f, d, times)
  }

  /** MONTHLY with the carry lands on the same day of month `(m - 1 + times)
      % 12 + 1` of year `y + (m - 1 + times) / 12`, rolled over if that
      month is shorter. */
  lemma MonthlyCarried(d: DateTime, times: nat)
    requires Valid(d)
    ensures
      var n := d.month - 1 + times;
      Instant(StepCarried(Monthly, d, times)) == DayNumber(d.year + n / 12, n % 12 + 1, d.day) * 86400 + TimeOfDay(d)
  {
    var ym := CarryMonth(d.year, d.month + times);
    assert ym == (d.year + (d.month - 1 + times) / 12, (d.month - 1 + times) % 12 + 1);
  }

  /** Within the year the carry changes nothing. */
  lemma CarryWithinYear(d: DateTime, times: nat)
    requires Valid(d) && d.month + times <= 12
    ensures StepCarried(Monthly, d, times) == Step(Monthly, d, times)
  {
    assert CarryMonth(d.year, d.month + times) == (d.year, d.month + times);
    assert WrapMonth(d.month + times) == d.month + times;
  }

  function IterateCarried(f: Frequency, d: DateTime, k: nat): (r: DateTime)
    requires Valid(d)
    ensures Valid(r)
    decreases k
  {
    if k == 0 then d else IterateCarried(f, StepCarried(f, d, 1), k - 1)
  }

  /** A later month of a later year lies later on the time line. */
  lemma LaterYear(y: int, m: int, z: int, n: int, day: int)
    requires 1 <= m <= 12 && 1 <= n <= 12 && y < z
    ensures DayNumber(y, m, day) < DayNumber(z, n, day)
  {
    DaysBeforeMonthMonotone(y, m, 12);
    DaysBeforeMonthMonotone(z, 1, n);
    MonthsFillYear(y);
    YearLength(y);
    DaysBeforeYearMonotone(y + 1, z);
  }

  /** With the year carried, every frequency moves forward. */
  lemma StepCarriedAdvances(f: Frequency, d: DateTime, times: nat)
    requires Valid(d) && times >= 1
    ensures Instant(d) < Instant(StepCarried(f, d, times))
  {
    if f == Monthly {
      MonthlyCarriedAdvances(d, times);
    } else {
      StepAdvances(f, d, times);
    }
  }

  lemma MonthlyCarriedAdvances(d: DateTime, times: nat)
    requires Valid(d) && times >= 1
    ensures Instant(d) < Instant(StepCarried(Monthly, d, times))
  {
    var n := d.month + times;
    var ym := CarryMonth(d.year, n);
    if n <= 12 {
      assert ym == (d.year, n);
      DaysBeforeMonthMonotone(d.year, d.month, n);
    } else {
      assert ym == CarryMonth(d.year + 1, n - 12);
      LaterYear(d.year, d.month, ym.0, ym.1, d.day);
    }
    var before := DayNumber(d.year, d.month, d.day);
    var after := DayNumber(ym.0, ym.1, d.day);
    assert before < after;
    var stepped := StepCarried(Monthly, d, times);
    assert Instant(stepped) == after * 86400 + TimeOfDay(d);
    assert Instant(d) == before * 86400 + TimeOfDay(d);
  }

  /** Outside MONTHLY the carried repetitions are the repetitions as
      written. */
  lemma {:induction false} IterateCarriedAgrees(f: Frequency, d: DateTime, k: nat)
    requires Valid(d) && f != Monthly
    ensures IterateCarried(f, d, k) == Iterate(f, d, k)
    decreases k
  {
    if k > 0 {
      var next := Step(f, d, 1);
      assert IterateCarried(f, d, k) == IterateCarried(f, StepCarried(f, d, 1), k - 1);
      assert Iterate(f, d, k) == Iterate(f, next, k - 1);
      assert StepCarried(f, d, 1) == next;
      IterateCarriedAgrees(f, next, k - 1);
    }
  }

  /** Each carried repetition lies strictly later than the one before. */
  lemma {:induction false} IterateCarriedAdvances(f: Frequency, d: DateTime, j: nat)
    requires Valid(d)
    ensures Instant(IterateCarried(f, d, j)) < Instant(IterateCarried(f, d, j + 1))
    decreases j
  {
    if j == 0 {
      StepCarriedAdvances(f, d, 1);
    } else {
      IterateCarriedAdvances(f, StepCarried(f, d, 1), j - 1);
    }
  }

  // ---------------------------------------------------------------------------
  // The search

  /** The cutoff with the default of four years of 365.25 days, which is
      126230400 seconds. */
  function CutoffCorrected(r: Rule, start: DateTime): (c: DateTime)
    requires r.frequency.Some? && Valid(start)
    requires r.until.Some? ==> Valid(r.until.value)
    ensures Valid(c)
    ensures r.until.Some? ==> c == r.until.value
    ensures r.until.None? && r.count.Some? ==> c == StepCarried(r.frequency.value, start, r.count.value)
    ensures r.until.None? && r.count.None? ==> Instant(c) == Instant(start) + 126230400
  {
    if r.until.Some? then r.until.value
    else if r.count.Some? then StepCarried(r.frequency.value, start, r.count.value)
    else AddDays(start, 1461)
  }

  /** The repetitions of `d` with the year carried: element `j` is `d`
      moved on by `j` carried steps. */
  function RepeatsCarried(f: Frequency, d: DateTime): (s: nat -> DateTime)
    requires Valid(d)
    ensures AllValid(s) && s(0) == d
  {
    (j: nat) => IterateCarried(f, d, j)
  }

  /** With the year carried the repetitions of every frequency lie strictly
      later one after another. */
  lemma RepeatsCarriedIncrease(f: Frequency, d: DateTime)
    requires Valid(d)
    ensures Increasing(RepeatsCarried(f, d))
  {
    forall j: nat
      ensures Instant(RepeatsCarried(f, d)(j)) < Instant(RepeatsCarried(f, d)(j + 1))
    {
      IterateCarriedAdvances(f, d, j);
    }
  }

  /** `first_start_of_event_between` with the loop running while the start
      is at or before the cutoff. It looks at element `i` of the
      repetitions `s` of the start and answers the number of the first
      repetition in the window. */
  function SearchCorrected(s: nat -> DateTime, i: nat, lo: DateTime, hi: DateTime, cutoff: DateTime, fuel: nat): (r: Run<Option<nat>>)
    requires AllValid(s) && Valid(lo) && Valid(hi) && Valid(cutoff)
    ensures r.Done? && r.value.Some? ==> i <= r.value.value && Between(s(r.value.value), lo, hi)
    decreases fuel
  {
    if Between(s(i), lo, hi) then Done(Some(i))
    else if !AtOrBefore(s(i), cutoff) then Done(None)
    else if fuel == 0 then OutOfFuel
    else SearchCorrected(s, i + 1, lo, hi, cutoff, fuel - 1)
  }

  /** The search answers the first repetition in the window, and every
      repetition before it lies at or before the cutoff. */
  lemma {:induction false} SearchCorrectedFirst(s: nat -> DateTime, i: nat, lo: DateTime, hi: DateTime, cutoff: DateTime, fuel: nat, k: nat, j: nat)
    requires AllValid(s) && Valid(lo) && Valid(hi) && Valid(cutoff)
    requires SearchCorrected(s, i, lo, hi, cutoff, fuel) == Done(Some(k)) && i <= j < k
    ensures !Between(s(j), lo, hi) && AtOrBefore(s(j), cutoff)
    decreases fuel
  {
    if j > i {
      SearchCorrectedFirst(s, i + 1, lo, hi, cutoff, fuel - 1, k, j);
    }
  }

  /** When the search of an increasing sequence finds nothing, every later
      repetition in the window lies after the cutoff. */
  lemma {:induction false} SearchCorrectedNone(s: nat -> DateTime, i: nat, lo: DateTime, hi: DateTime, cutoff: DateTime, fuel: nat, j: nat)
    requires AllValid(s) && Increasing(s) && Valid(lo) && Valid(hi) && Valid(cutoff)
    requires SearchCorrected(s, i, lo, hi, cutoff, fuel) == Done(None) && i <= j
    requires Between(s(j), lo, hi)
    ensures !AtOrBefore(s(j), cutoff)
    decreases fuel
  {
    if !AtOrBefore(s(i), cutoff) {
      IncreasingApart(s, i, j);
    } else {
      SearchCorrectedNone(s, i + 1, lo, hi, cutoff, fuel - 1, j);
    }
  }

  /** The search of an increasing sequence ends once it has fuel for one
      step per second between the repetition it starts from and the
      cutoff. */
  lemma {:induction false} SearchCorrectedEnds(s: nat -> DateTime, i: nat, lo: DateTime, hi: DateTime, cutoff: DateTime, fuel: nat)
    requires AllValid(s) && Increasing(s) && Valid(lo) && Valid(hi) && Valid(cutoff)
    requires Instant(cutoff) - Instant(s(i)) < fuel
    ensures SearchCorrected(s, i, lo, hi, cutoff, fuel).Done?
    decreases fuel
  {
    if !Between(s(i), lo, hi) && AtOrBefore(s(i), cutoff) {
      assert Instant(s(i)) < Instant(s(i + 1));
      SearchCorrectedEnds(s, i + 1, lo, hi, cutoff, fuel - 1);
    }
  }

  // ---------------------------------------------------------------------------
  // The expansion

  /** The corrected search followed by the corrected generation loop, for
      any cutoff. */
  function ExpandCarried<P>(e: Event<P>, s: nat -> DateTime, t: nat -> DateTime, lo: DateTime, hi: DateTime, cutoff: DateTime, fuel: nat): (res: Run<seq<Event<P>>>)
    requires AllValid(s) && Valid(lo) && Valid(hi) && Valid(cutoff)
    ensures res.Done? && |res.value| > 0 ==> Valid(res.value[0].dtstart) && Between(res.value[0].dtstart, lo, hi)
  {
    match SearchCorrected(s, 0, lo, hi, cutoff, fuel)
    case OutOfFuel => OutOfFuel
    case Done(None) => Done([])
    case Done(Some(k)) => Generate(e, s, t, k, k, hi, fuel)
  }

  /** Over increasing starts, with enough fuel the expansion ends, and it
      yields an occurrence whenever a repetition at or before the cutoff
      falls in the window. */
  lemma ExpandCarriedComplete<P>(e: Event<P>, s: nat -> DateTime, t: nat -> DateTime, lo: DateTime, hi: DateTime, cutoff: DateTime, fuel: nat, j: nat)
    requires AllValid(s) && Increasing(s) && Valid(lo) && Valid(hi) && Valid(cutoff)
    requires Instant(cutoff) - Instant(s(0)) < fuel && Instant(hi) - Instant(s(0)) < fuel
    requires Between(s(j), lo, hi) && AtOrBefore(s(j), cutoff)
    ensures ExpandCarried(e, s, t, lo, hi, cutoff, fuel).Done?
    ensures |ExpandCarried(e, s, t, lo, hi, cutoff, fuel).value| > 0
  {
    SearchCorrectedEnds(s, 0, lo, hi, cutoff, fuel);
    var r := SearchCorrected(s, 0, lo, hi, cutoff, fuel);
    if r == Done(None) {
      SearchCorrectedNone(s, 0, lo, hi, cutoff, fuel, j);
    }
    var k := r.value.value;
    IncreasingApart(s, 0, k);
    GenerateEnds(e, s, t, k, k, hi, fuel);
  }

  /** The expansion yields repetitions `k`, `k + 1`, ... at both ends,
      where `k` is the first repetition in the window. */
  lemma ExpandCarriedPairs<P>(e: Event<P>, s: nat -> DateTime, t: nat -> DateTime, lo: DateTime, hi: DateTime, cutoff: DateTime, fuel: nat, k: nat, m: nat)
    requires AllValid(s) && Valid(lo) && Valid(hi) && Valid(cutoff)
    requires SearchCorrected(s, 0, lo, hi, cutoff, fuel) == Done(Some(k))
    requires ExpandCarried(e, s, t, lo, hi, cutoff, fuel).Done? && m < |ExpandCarried(e, s, t, lo, hi, cutoff, fuel).value|
    ensures forall j :: 0 <= j < k ==> !Between(s(j), lo, hi)
    ensures ExpandCarried(e, s, t, lo, hi, cutoff, fuel).value[m] == Moved(e, s(k + m), t(k + m))
    ensures AtOrBefore(s(k + m), hi)
  {
    forall j | 0 <= j < k
      ensures !Between(s(j), lo, hi)
    {
      SearchCorrectedFirst(s, 0, lo, hi, cutoff, fuel, k, j);
    }
    GeneratePairs(e, s, t, k, k, hi, fuel, m);
  }

  /** `occurrences_of_event_between` with the corrected search and cutoff,
      the year carried, and the first end stepped as often as the first
      start. */
  function OccurrencesCorrected<P>(r: Rule, e: Event<P>, lo: DateTime, hi: DateTime, fuel: nat): (res: Run<seq<Event<P>>>)
    requires Expandable(r, e, lo, hi)
    ensures res.Done? && |res.value| > 0 ==> Valid(res.value[0].dtstart) && Between(res.value[0].dtstart, lo, hi)
  {
    var f := r.frequency.value;
    ExpandCarried(e, RepeatsCarried(f, e.dtstart), RepeatsCarried(f, e.dtend), lo, hi, CutoffCorrected(r, e.dtstart), fuel)
  }

  /** With enough fuel the corrected expansion ends for every frequency, and
      it yields an occurrence whenever a repetition at or before the cutoff
      falls in the window. */
  lemma OccurrencesCorrectedComplete<P>(r: Rule, e: Event<P>, lo: DateTime, hi: DateTime, fuel: nat, j: nat)
    requires Expandable(r, e, lo, hi)
    requires Instant(CutoffCorrected(r, e.dtstart)) - Instant(e.dtstart) < fuel
    requires Instant(hi) - Instant(e.dtstart) < fuel
    requires Between(IterateCarried(r.frequency.value, e.dtstart, j), lo, hi)
    requires AtOrBefore(IterateCarried(r.frequency.value, e.dtstart, j), CutoffCorrected(r, e.dtstart))
    ensures OccurrencesCorrected(r, e, lo, hi, fuel).Done?
    ensures |OccurrencesCorrected(r, e, lo, hi, fuel).value| > 0
  {
    var f := r.frequency.value;
    RepeatsCarriedIncrease(f, e.dtstart);
    ExpandCarriedComplete(e, RepeatsCarried(f, e.dtstart), RepeatsCarried(f, e.dtend), lo, hi, CutoffCorrected(r, e.dtstart), fuel, j);
  }

  /** Occurrence `m` of the corrected expansion is the event moved on by
      `k + m` carried steps at both ends, where repetition `k` is the first
      in the window; every occurrence starts at or before `hi`. */
  lemma OccurrencesCorrectedPairs<P>(r: Rule, e: Event<P>, lo: DateTime, hi: DateTime, fuel: nat, m: nat) returns (k: nat)
    requires Expandable(r, e, lo, hi)
    requires OccurrencesCorrected(r, e, lo, hi, fuel).Done? && m < |OccurrencesCorrected(r, e, lo, hi, fuel).value|
    ensures
      var s, t := RepeatsCarried(r.frequency.value, e.dtstart), RepeatsCarried(r.frequency.value, e.dtend);
      && Between(s(k), lo, hi)
      && (forall j: nat :: j < k ==> !Between(s(j), lo, hi))
      && OccurrencesCorrected(r, e, lo, hi, fuel).value[m] == Moved(e, s(k + m), t(k + m))
      && AtOrBefore(s(k + m), hi)
  {
    var f := r.frequency.value;
    var s, t := RepeatsCarried(f, e.dtstart), RepeatsCarried(f, e.dtend);
    var cutoff := CutoffCorrected(r, e.dtstart);
    k := SearchCorrected(s, 0, lo, hi, cutoff, fuel).value.value;
    ExpandCarriedPairs(e, s, t, lo, hi, cutoff, fuel, k, m);
  }

  /** When every end lies the same distance after its start, so does every
      clone's. */
  lemma ExpandCarriedKeepsDuration<P>(e: Event<P>, s: nat -> DateTime, t: nat -> DateTime, lo: DateTime, hi: DateTime, cutoff: DateTime, fuel: nat, m: nat, length: int)
    requires AllValid(s) && AllValid(t) && Valid(lo) && Valid(hi) && Valid(cutoff)
    requires forall j: nat :: Instant(t(j)) - Instant(s(j)) == length
    requires ExpandCarried(e, s, t, lo, hi, cutoff, fuel).Done? && m < |ExpandCarried(e, s, t, lo, hi, cutoff, fuel).value|
    ensures
      var o := ExpandCarried(e, s, t, lo, hi, cutoff, fuel).value[m];
      Valid(o.dtstart) && Valid(o.dtend) && Instant(o.dtend) - Instant(o.dtstart) == length
  {
    var k := SearchCorrected(s, 0, lo, hi, cutoff, fuel).value.value;
    ExpandCarriedPairs(e, s, t, lo, hi, cutoff, fuel, k, m);
  }

  /** With a fixed-length frequency every corrected occurrence keeps the
      event's duration. */
  lemma OccurrencesCorrectedKeepDuration<P>(r: Rule, e: Event<P>, lo: DateTime, hi: DateTime, fuel: nat, m: nat)
    requires Expandable(r, e, lo, hi) && FixedLength(r.frequency.value)
    requires OccurrencesCorrected(r, e, lo, hi, fuel).Done? && m < |OccurrencesCorrected(r, e, lo, hi, fuel).value|
    ensures
      var o := OccurrencesCorrected(r, e, lo, hi, fuel).value[m];
      && Valid(o.dtstart) && Valid(o.dtend)
      && Instant(o.dtend) - Instant(o.dtstart) == Instant(e.dtend) - Instant(e.dtstart)
  {
    var f := r.frequency.value;
    RepeatsCarriedKeepDuration(f, e.dtstart, e.dtend);
    ExpandCarriedKeepsDuration(e, RepeatsCarried(f, e.dtstart), RepeatsCarried(f, e.dtend), lo, hi, CutoffCorrected(r, e.dtstart), fuel, m,
      Instant(e.dtend) - Instant(e.dtstart));
  }

  /** Fixed-length steps keep the distance between two date-times. */
  lemma RepeatsCarriedKeepDuration(f: Frequency, a: DateTime, b: DateTime)
    requires Valid(a) && Valid(b) && FixedLength(f)
    ensures forall j: nat :: Instant(RepeatsCarried(f, b)(j)) - Instant(RepeatsCarried(f, a)(j)) == Instant(b) - Instant(a)
  {
    forall j: nat
      ensures Instant(RepeatsCarried(f, b)(j)) - Instant(RepeatsCarried(f, a)(j)) == Instant(b) - Instant(a)
    {
      IterateCarriedAgrees(f, a, j);
      IterateCarriedAgrees(f, b, j);
      IterateKeepsDistance(f, a, b, j);
    }
  }

  // ---------------------------------------------------------------------------
  // Inputs on which the code as written departs from the above

  const NoLists := ByLists(None, None, None, None, None, None, None, None, None)

  function Plain(text: string, f: Frequency): Rule {
    Rule(text, Some(f), None, None, None, NoLists, None)
  }

  /** The instants of the dates of the daily example, in seconds. */
  lemma DailyInstants()
    ensures Instant(DateTime(2020, 1, 1, 10, 0, 0)) == 63745092000
    ensures Instant(DateTime(2020, 1, 6, 0, 0, 0)) == 63745488000
  {
  }

  /** A daily event from 1 January 2020 10:00 seen through the window
      6 to 9 January: its sixth repetition falls inside, yet the code as
      written yields nothing, whatever fuel it is given: the search stops at
      once because the start lies before the window. */
  lemma DailyWindowMissed(fuel: nat)
    ensures
      var e := Event(DateTime(2020, 1, 1, 10, 0, 0), DateTime(2020, 1, 1, 11, 0, 0), ());
      var lo, hi := DateTime(2020, 1, 6, 0, 0, 0), DateTime(2020, 1, 9, 0, 0, 0);
      && Between(Iterate(Daily, e.dtstart, 5), lo, hi)
      && OccurrencesOfEventBetween(Plain("FREQ=DAILY", Daily), e, lo, hi, fuel) == Done([])
  {
    var e := Event(DateTime(2020, 1, 1, 10, 0, 0), DateTime(2020, 1, 1, 11, 0, 0), ());
    var lo, hi := DateTime(2020, 1, 6, 0, 0, 0), DateTime(2020, 1, 9, 0, 0, 0);
    var r := Plain("FREQ=DAILY", Daily);
    IterateFixed(Daily, e.dtstart, 5);
    DailyInstants();
    assert !AtOrBefore(lo, e.dtstart);
    assert FirstIndex(r, e, lo, hi, fuel) == Done(None);
  }

  /** The same daily event and window give an occurrence once corrected. */
  lemma DailyWindowFound(fuel: nat)
    requires fuel > 126230400
    ensures
      var e := Event(DateTime(2020, 1, 1, 10, 0, 0), DateTime(2020, 1, 1, 11, 0, 0), ());
      var lo, hi := DateTime(2020, 1, 6, 0, 0, 0), DateTime(2020, 1, 9, 0, 0, 0);
      var o := OccurrencesCorrected(Plain("FREQ=DAILY", Daily), e, lo, hi, fuel);
      o.Done? && |o.value| > 0
  {
    var e := Event(DateTime(2020, 1, 1, 10, 0, 0), DateTime(2020, 1, 1, 11, 0, 0), ());
    var lo, hi := DateTime(2020, 1, 6, 0, 0, 0), DateTime(2020, 1, 9, 0, 0, 0);
    IterateFixed(Daily, e.dtstart, 5);
    IterateCarriedAgrees(Daily, e.dtstart, 5);
    OccurrencesCorrectedComplete(Plain("FREQ=DAILY", Daily), e, lo, hi, fuel, 5);
  }

  /** A monthly event on 15 December 2020, 10:00 to 11:00, until the end
      of 2021, seen through January 2020. */
  const UntilEnd2021 := Rule("FREQ=MONTHLY;UNTIL=20211231T000000Z", Some(Monthly), Some(DateTime(2021, 12, 31, 0, 0, 0)), None, None, NoLists, None)
  const December := Event(DateTime(2020, 12, 15, 10, 0, 0), DateTime(2020, 12, 15, 11, 0, 0), ())
  const January := DateTime(2020, 1, 15, 10, 0, 0)

  /** The instants of the dates of the December example, in seconds. */
  lemma DecemberInstants()
    ensures Instant(December.dtstart) == 63775245600
    ensures Instant(January) == 63746301600
    ensures Instant(DateTime(2020, 2, 15, 10, 0, 0)) == 63748980000
  {
  }

  lemma DecemberWindowInstants()
    ensures Instant(DateTime(2020, 1, 1, 0, 0, 0)) == 63745056000
    ensures Instant(DateTime(2020, 1, 31, 0, 0, 0)) == 63747648000
    ensures Instant(DateTime(2021, 12, 31, 0, 0, 0)) == 63808128000
  {
  }

  /** One MONTHLY step takes December back to January of the same year. */
  lemma DecemberStepsBack()
    ensures Step(Monthly, December.dtstart, 1) == January
    ensures Step(Monthly, December.dtend, 1) == DateTime(2020, 1, 15, 11, 0, 0)
    ensures Step(Monthly, January, 1) == DateTime(2020, 2, 15, 10, 0, 0)
  {
    assert WrapMonth(13) == 1 && WrapMonth(2) == 2;
  }

  /** The search steps the December start back into January: the first
      repetition in the window is the first one. */
  lemma DecemberSearch()
    ensures FirstIndex(UntilEnd2021, December, DateTime(2020, 1, 1, 0, 0, 0), DateTime(2020, 1, 31, 0, 0, 0), 1) == Done(Some(1))
    ensures FirstStartOfEventBetween(UntilEnd2021, December, DateTime(2020, 1, 1, 0, 0, 0), DateTime(2020, 1, 31, 0, 0, 0), 1)
      == Done(Some(January))
  {
    DecemberStepsBack();
    DecemberInstants();
    DecemberWindowInstants();
    var lo, hi := DateTime(2020, 1, 1, 0, 0, 0), DateTime(2020, 1, 31, 0, 0, 0);
    assert Repeats(Monthly, December.dtstart)(1) == January;
    assert !Between(December.dtstart, lo, hi) && Between(December.dtstart, lo, UntilEnd2021.until.value);
    assert Between(January, lo, hi);
  }

  /** From January the generation loop yields one clone, which keeps the
      December end. */
  lemma DecemberGenerate()
    ensures Generate(December, Repeats(Monthly, December.dtstart), Repeats(Monthly, December.dtend), 1, 0, DateTime(2020, 1, 31, 0, 0, 0), 1)
      == Done([Moved(December, January, December.dtend)])
  {
    DecemberStepsBack();
    var s, t := Repeats(Monthly, December.dtstart), Repeats(Monthly, December.dtend);
    var hi := DateTime(2020, 1, 31, 0, 0, 0);
    var february := DateTime(2020, 2, 15, 10, 0, 0);
    assert s(1) == January;
    IterateNext(Monthly, December.dtstart, 1);
    assert s(2) == february;
    DecemberInstants();
    DecemberWindowInstants();
    assert AtOrBefore(January, hi) && !AtOrBefore(february, hi);
    assert Generate(December, s, t, 2, 1, hi, 0) == Done([]);
    var clone := Moved(December, January, December.dtend);
    assert [clone] + [] == [clone];
  }

  /** The code as written pairs the January start with the event's own
      end, eleven months later. */
  lemma MonthlyFirstEndUnstepped()
    ensures
      OccurrencesOfEventBetween(UntilEnd2021, December, DateTime(2020, 1, 1, 0, 0, 0), DateTime(2020, 1, 31, 0, 0, 0), 1)
        == Done([Event(DateTime(2020, 1, 15, 10, 0, 0), DateTime(2020, 12, 15, 11, 0, 0), ())])
  {
    DecemberSearch();
    DecemberGenerate();
  }

  /** A monthly event on 15 March 2020 seen through the whole of 2020: the
      code as written cycles through the months of 2020 for ever. */
  lemma MonthlyNeverEnds(fuel: nat)
    ensures
      var e := Event(DateTime(2020, 3, 15, 10, 0, 0), DateTime(2020, 3, 15, 11, 0, 0), ());
      var lo, hi := DateTime(2020, 1, 1, 0, 0, 0), DateTime(2021, 1, 1, 0, 0, 0);
      OccurrencesOfEventBetween(Plain("FREQ=MONTHLY", Monthly), e, lo, hi, fuel) == OutOfFuel
  {
    var e := Event(DateTime(2020, 3, 15, 10, 0, 0), DateTime(2020, 3, 15, 11, 0, 0), ());
    var lo, hi := DateTime(2020, 1, 1, 0, 0, 0), DateTime(2021, 1, 1, 0, 0, 0);
    MonthlyGenerationNeverEnds(e, 0, 0, hi, fuel);
  }

  /** Without UNTIL and COUNT the code as written searches up to 126230400
      days after the start, more than 345000 years. */
  lemma CutoffInDays(r: Rule, start: DateTime)
    requires r.frequency.Some? && Valid(start) && r.until.None? && r.count.None?
    ensures Instant(Cutoff(r, start)) - Instant(start) > 345000 * 365 * 86400
    ensures Instant(CutoffCorrected(r, start)) - Instant(start) == 4 * 36525 * 864
  {
  }
}

=== FILE: occurrences.dfy ===
/** Moving a start on by the rule's frequency (`add_frequency_to_datetime`)
    and expanding an event into occurrences, as rrule.rb does it. The loops
    of the expansion need not end (MONTHLY cycles within one year), so they
    take fuel and report `OutOfFuel` when it runs out. */
module Occurrences {
  import opened Outcomes
  import opened Calendar
  import opened RRule

  /** An event as the expansion sees it: its start, its end, and everything
      else it carries, which every clone keeps. */
  datatype Event<P> = Event(dtstart: DateTime, dtend: DateTime, details: P)

  /** The event's clone moved to a new start and end. */
  function Moved<P>(e: Event<P>, start: DateTime, end: DateTime): Event<P> {
    Event(start, end, e.details)
  }

  // ---------------------------------------------------------------------------
  // One step of the frequency

  /** Frequencies whose step is a fixed number of seconds. */
  predicate FixedLength(f: Frequency) {
    f != Monthly && f != Yearly
  }

  /** The length in seconds of one step of a fixed-length frequency. */
  function Seconds(f: Frequency): nat
    requires FixedLength(f)
  {
    if f == Secondly then 1
    else if f == Minutely then 60
    else if f == Hourly then 3600
    else if f == Daily then 86400
    else 604800
  }

  /** The length in days of one step of DAILY or WEEKLY. */
  function Days(f: Frequency): nat
    requires f == Daily || f == Weekly
    ensures Days(f) * 86400 == Seconds(f)
  {
    if f == Daily then 1 else 7
  }

  /** `(sum % 12 == 0) ? 12 : sum % 12`: the month number congruent to `sum`. */
  function WrapMonth(sum: int): (m: int)
    ensures 1 <= m <= 12
    ensures (sum - m) % 12 == 0
  {
    if sum % 12 == 0 then 12 else sum % 12
  }

  /** `add_frequency_to_datetime(start, times)`. The fixed-length frequencies
      add `times` seconds, minutes, hours, days or weeks; MONTHLY rebuilds
      the date with the month moved on modulo 12 and the year kept; YEARLY
      rebuilds it with the year moved on. A day of month the new month lacks
      rolls over into the month after. */
  function Step(f: Frequency, d: DateTime, times: nat): (r: DateTime)
    requires Valid(d)
    ensures Valid(r)
    ensures f == Daily || f == Weekly || f == Monthly || f == Yearly ==> SameTimeOfDay(r, d)
    ensures f == Monthly ==> r.year == d.year
  {
    if f == Monthly || f == Yearly then
      var year := if f == Yearly then d.year + times else d.year;
      var month := if f == Monthly then WrapMonth(d.month + times) else d.month;
      CivilTime(year, month, d.day, d.hour, d.minute, d.second)
    else if f == Daily || f == Weekly then AddDays(d, Days(f) * times)
    else AddSeconds(d, Seconds(f) * times)
  }

  /** MONTHLY lands on the same day and time of month `m + times` taken
      modulo 12, in the same year; YEARLY on the same day, month and time
      `times` years later. A missing day rolls over into the next month. */
  lemma StepCalendar(f: Frequency, d: DateTime, times: nat)
    requires Valid(d) && (f == Monthly || f == Yearly)
    ensures f == Monthly ==> Instant(Step(f, d, times)) == DayNumber(d.year, WrapMonth(d.month + times), d.day) * 86400 + TimeOfDay(d)
    ensures f == Yearly ==> Instant(Step(f, d, times)) == DayNumber(d.year + times, d.month, d.day) * 86400 + TimeOfDay(d)
  {
  }

  /** The start after `k` single steps, as the loops compute it. */
  function Iterate(f: Frequency, d: DateTime, k: nat): (r: DateTime)
    requires Valid(d)
    ensures Valid(r)
    decreases k
  {
    if k == 0 then d else Iterate(f, Step(f, d, 1), k - 1)
  }

  /** Each repetition is the one before moved on by one step. */
  lemma {:induction false} IterateNext(f: Frequency, d: DateTime, k: nat)
    requires Valid(d)
    ensures Iterate(f, d, k + 1) == Step(f, Iterate(f, d, k), 1)
    decreases k
  {
    if k > 0 {
      IterateNext(f, Step(f, d, 1), k - 1);
    }
  }

  /** The fixed-length frequencies move a date-time by their length in
      seconds per step. */
  lemma StepFixed(f: Frequency, d: DateTime, times: nat)
    requires Valid(d) && FixedLength(f)
    ensures Instant(Step(f, d, times)) == Instant(d) + Seconds(f) * times
  {
    if f == Daily || f == Weekly {
      assert 86400 * (Days(f) * times) == Seconds(f) * times;
    }
  }

  lemma AtLeastOnce(length: int, times: int)
    requires length >= 1 && times >= 1
    ensures length * times >= 1
  {
  }

  /** Every frequency but MONTHLY moves forward on the time line. */
  lemma StepAdvances(f: Frequency, d: DateTime, times: nat)
    requires Valid(d) && f != Monthly && times >= 1
    ensures Instant(d) < Instant(Step(f, d, times))
  {
    if f == Yearly {
      StepCalendar(f, d, times);
      YearsLater(d.year, times, d.month, d.day);
    } else {
      StepFixed(f, d, times);
      AtLeastOnce(Seconds(f), times);
    }
  }

  /** MONTHLY from December goes back to January of the same year. */
  lemma MonthlyStepsBack(d: DateTime)
    requires Valid(d) && d.month == 12
    ensures Step(Monthly, d, 1).month == 1 && Step(Monthly, d, 1).year == d.year
    ensures Instant(Step(Monthly, d, 1)) < Instant(d)
  {
    StepCalendar(Monthly, d, 1);
    DaysBeforeMonthMonotone(d.year, 1, 12);
  }

  /** Repeated fixed-length steps add up. */
  lemma IterateFixed(f: Frequency, d: DateTime, k: nat)
    requires Valid(d) && FixedLength(f)
    ensures Instant(Iterate(f, d, k)) == Instant(d) + Seconds(f) * k
  {
    var s := Repeats(f, d);
    forall j: nat
      ensures Instant(s(j + 1)) == Instant(s(j)) + Seconds(f)
    {
      RepeatGap(f, d, j);
    }
    SteadyGaps(s, Seconds(f), k);
  }

  lemma RepeatGap(f: Frequency, d: DateTime, j: nat)
    requires Valid(d) && FixedLength(f)
    ensures Instant(Repeats(f, d)(j + 1)) == Instant(Repeats(f, d)(j)) + Seconds(f)
  {
    IterateNext(f, d, j);
    StepFixed(f, Iterate(f, d, j), 1);
  }

  /** Equal gaps between neighbours add up. */
  lemma {:induction false} SteadyGaps(s: nat -> DateTime, length: int, k: nat)
    requires AllValid(s)
    requires forall j: nat :: Instant(s(j + 1)) == Instant(s(j)) + length
    ensures Instant(s(k)) == Instant(s(0)) + length * k
    decreases k
  {
    if k > 0 {
      var p := k - 1;
      SteadyGaps(s, length, p);
      assert Instant(s(p + 1)) == Instant(s(p)) + length;
      OneMore(length, k);
    }
  }

  lemma OneMore(length: int, k: int)
    ensures length * 1 + length * (k - 1) == length * k
  {
  }

  lemma IterateKeepsDistance(f: Frequency, a: DateTime, b: DateTime, k: nat)
    requires Valid(a) && Valid(b) && FixedLength(f)
    ensures Instant(Iterate(f, b, k)) - Instant(Iterate(f, a, k)) == Instant(b) - Instant(a)
  {
    IterateFixed(f, a, k);
    IterateFixed(f, b, k);
  }

  /** MONTHLY repetitions never leave the year they start in. */
  lemma {:induction false} IterateMonthlyKeepsYear(d: DateTime, k: nat)
    requires Valid(d)
    ensures Iterate(Monthly, d, k).year == d.year
    decreases k
  {
    if k > 0 {
      IterateMonthlyKeepsYear(Step(Monthly, d, 1), k - 1);
    }
  }

  // ---------------------------------------------------------------------------
  // Sequences of repetitions

  /** The repetitions of `d` as the loops produce them: element `j` is `d`
      moved on by `j` single steps. */
  function Repeats(f: Frequency, d: DateTime): (s: nat -> DateTime)
    requires Valid(d)
    ensures AllValid(s) && s(0) == d
  {
    (j: nat) => Iterate(f, d, j)
  }

  ghost predicate AllValid(s: nat -> DateTime) {
    forall j: nat :: Valid(s(j))
  }

  /** Every element lies strictly after the one before it. */
  ghost predicate Increasing(s: nat -> DateTime)
    requires AllValid(s)
  {
    forall j: nat :: Instant(s(j)) < Instant(s(j + 1))
  }

  /** In an increasing sequence a later element lies later, by at least a
      second per element. */
  lemma {:induction false} IncreasingApart(s: nat -> DateTime, i: nat, j: nat)
    requires AllValid(s) && Increasing(s) && i <= j
    ensures Instant(s(j)) - Instant(s(i)) >= j - i
    decreases j - i
  {
    if i < j {
      IncreasingApart(s, i + 1, j);
      assert Instant(s(i)) < Instant(s(i + 1));
    }
  }

  /** Outside MONTHLY the repetitions lie strictly later one after another. */
  lemma RepeatsIncrease(f: Frequency, d: DateTime)
    requires Valid(d) && f != Monthly
    ensures Increasing(Repeats(f, d))
  {
    forall j: nat
      ensures Instant(Repeats(f, d)(j)) < Instant(Repeats(f, d)(j + 1))
    {
      RepeatAdvances(f, d, j);
    }
  }

  lemma RepeatAdvances(f: Frequency, d: DateTime, j: nat)
    requires Valid(d) && f != Monthly
    ensures Instant(Repeats(f, d)(j)) < Instant(Repeats(f, d)(j + 1))
  {
    IterateNext(f, d, j);
    StepAdvances(f, Iterate(f, d, j), 1);
  }

  /** MONTHLY repetitions of a start all lie before the next year begins. */
  lemma MonthlyRepeatsWithinYear(d: DateTime, hi: DateTime, j: nat)
    requires Valid(d) && Valid(hi) && DaysBeforeYear(d.year + 1) * 86400 <= Instant(hi)
    ensures AtOrBefore(Repeats(Monthly, d)(j), hi)
  {
    IterateMonthlyKeepsYear(d, j);
    InstantBeforeNextYear(Iterate(Monthly, d, j));
  }

  // ---------------------------------------------------------------------------
  // occurrences_of_event_starting

  datatype ExpandError = CountUnset

  /** `occurrences_of_event_starting`: COUNT clones of the event whose starts
      are the event's start plus 0, 1, 2, ... days, whatever the frequency;
      the ends are left alone. Without COUNT there is no finite range. */
  function OccurrencesOfEventStarting<P>(r: Rule, e: Event<P>): (res: Result<seq<Event<P>>, ExpandError>)
    requires Valid(e.dtstart)
    ensures r.count.None? <==> res == Failure(CountUnset)
    ensures res.Success? ==> |res.value| == r.count.value
    ensures res.Success? ==> forall i :: 0 <= i < |res.value| ==>
      && res.value[i].dtend == e.dtend
      && res.value[i].details == e.details
      && Valid(res.value[i].dtstart)
      && SameTimeOfDay(res.value[i].dtstart, e.dtstart)
      && Instant(res.value[i].dtstart) == Instant(e.dtstart) + 86400 * i
  {
    match r.count
    case None => Failure(CountUnset)
    case Some(n) => Success(seq(n, i requires 0 <= i < n => Moved(e, AddDays(e.dtstart, i), e.dtend)))
  }

  /** Adding one more day is moving to the next calendar day. */
  lemma {:induction false} AddDaysLast(d: DateTime, n: nat)
    requires Valid(d)
    ensures AddDays(d, n + 1) == NextDay(AddDays(d, n))
    decreases n
  {
    if n > 0 {
      AddDaysLast(NextDay(d), n - 1);
    }
  }

  /** Each occurrence from `occurrences_of_event_starting` falls on the
      calendar day after the one before it. */
  lemma StartingDayByDay<P>(r: Rule, e: Event<P>, i: nat)
    requires Valid(e.dtstart)
    requires OccurrencesOfEventStarting(r, e).Success?
    requires i + 1 < |OccurrencesOfEventStarting(r, e).value|
    ensures OccurrencesOfEventStarting(r, e).value[i + 1].dtstart == NextDay(OccurrencesOfEventStarting(r, e).value[i].dtstart)
  {
    AddDaysLast(e.dtstart, i);
  }

  // ---------------------------------------------------------------------------
  // first_start_of_event_between

  /** The instant `first_start_of_event_between` stops searching at: UNTIL
      when set, else the start moved on COUNT times, else the start plus
      126230400 (`DateTime#+` counts that in days). */
  function Cutoff(r: Rule, start: DateTime): (c: DateTime)
    requires r.frequency.Some? && Valid(start)
    requires r.until.Some? ==> Valid(r.until.value)
    ensures Valid(c)
    ensures r.until.Some? ==> c == r.until.value
    ensures r.until.None? && r.count.Some? ==> c == Step(r.frequency.value, start, r.count.value)
    ensures r.until.None? && r.count.None? ==> Instant(c) == Instant(start) + 126230400 * 86400
  {
    if r.until.Some? then r.until.value
    else if r.count.Some? then Step(r.frequency.value, start, r.count.value)
    else AddDays(start, 126230400)
  }

  /** The `while` loop of `first_start_of_event_between` over the
      repetitions `s` of the event start, from repetition `i` on: as long as
      the repetition lies between the window start and the cutoff, step to
      the next one, and answer its number if it lies in the window. */
  function SearchLoop(s: nat -> DateTime, i: nat, lo: DateTime, hi: DateTime, cutoff: DateTime, fuel: nat): (r: Run<Option<nat>>)
    requires AllValid(s) && Valid(lo) && Valid(hi) && Valid(cutoff)
    ensures r.Done? && r.value.Some? ==> i < r.value.value && Between(s(r.value.value), lo, hi)
    decreases fuel
  {
    if !Between(s(i), lo, cutoff) then Done(None)
    else if fuel == 0 then OutOfFuel
    else if Between(s(i + 1), lo, hi) then Done(Some(i + 1))
    else SearchLoop(s, i + 1, lo, hi, cutoff, fuel - 1)
  }

  /** The event start and the window are what the search works on. */
  predicate Expandable<P>(r: Rule, e: Event<P>, lo: DateTime, hi: DateTime) {
    && r.frequency.Some?
    && Valid(e.dtstart) && Valid(e.dtend) && Valid(lo) && Valid(hi)
    && (r.until.Some? ==> Valid(r.until.value))
  }

  /** The number of the repetition of the event start that
      `first_start_of_event_between` answers: none of them when the start
      lies in the window, else whichever the loop finds. */
  function FirstIndex<P>(r: Rule, e: Event<P>, lo: DateTime, hi: DateTime, fuel: nat): (res: Run<Option<nat>>)
    requires Expandable(r, e, lo, hi)
    ensures Between(e.dtstart, lo, hi) ==> res == Done(Some(0))
    ensures res.Done? && res.value.Some? ==> Between(Repeats(r.frequency.value, e.dtstart)(res.value.value), lo, hi)
  {
    if Between(e.dtstart, lo, hi) then Done(Some(0))
    else SearchLoop(Repeats(r.frequency.value, e.dtstart), 0, lo, hi, Cutoff(r, e.dtstart), fuel)
  }

  /** `first_start_of_event_between`: the event start when it lies in the
      window `lo..hi`, else whatever the loop finds. */
  function FirstStartOfEventBetween<P>(r: Rule, e: Event<P>, lo: DateTime, hi: DateTime, fuel: nat): (res: Run<Option<DateTime>>)
    requires Expandable(r, e, lo, hi)
    ensures Between(e.dtstart, lo, hi) ==> res == Done(Some(e.dtstart))
    ensures res.Done? && res.value.Some? ==> Valid(res.value.value) && Between(res.value.value, lo, hi)
  {
    match FirstIndex(r, e, lo, hi, fuel)
    case OutOfFuel => OutOfFuel
    case Done(None) => Done(None)
    case Done(Some(k)) => Done(Some(Repeats(r.frequency.value, e.dtstart)(k)))
  }

  /** Over increasing repetitions, one outside the window is never stepped
      into it: the loop only runs while the repetition is past the window's
      start, so past its end, and each step moves it further on. */
  lemma {:induction false} SearchNeverSteps(s: nat -> DateTime, i: nat, lo: DateTime, hi: DateTime, cutoff: DateTime, fuel: nat)
    requires AllValid(s) && Increasing(s) && Valid(lo) && Valid(hi) && Valid(cutoff)
    requires !Between(s(i), lo, hi)
    ensures SearchLoop(s, i, lo, hi, cutoff, fuel) in {Done(None), OutOfFuel}
    decreases fuel
  {
    if Between(s(i), lo, cutoff) && fuel > 0 {
      assert Instant(s(i)) < Instant(s(i + 1));
      SearchNeverSteps(s, i + 1, lo, hi, cutoff, fuel - 1);
    }
  }

  /** Over increasing repetitions the loop ends once it has fuel for one
      step per second between the repetition it starts from and the
      cutoff. */
  lemma {:induction false} SearchEnds(s: nat -> DateTime, i: nat, lo: DateTime, hi: DateTime, cutoff: DateTime, fuel: nat)
    requires AllValid(s) && Increasing(s) && Valid(lo) && Valid(hi) && Valid(cutoff)
    requires Instant(cutoff) - Instant(s(i)) < fuel
    ensures SearchLoop(s, i, lo, hi, cutoff, fuel).Done?
    decreases fuel
  {
    if Between(s(i), lo, cutoff) {
      assert Instant(s(i)) < Instant(s(i + 1));
      if !Between(s(i + 1), lo, hi) {
        SearchEnds(s, i + 1, lo, hi, cutoff, fuel - 1);
      }
    }
  }

  /** The loop answers the first repetition after `i` that lies in the
      window: every repetition it passed lay between the window start and
      the cutoff, and none of them after `i` lay in the window. */
  lemma {:induction false} SearchLoopFirst(s: nat -> DateTime, i: nat, lo: DateTime, hi: DateTime, cutoff: DateTime, fuel: nat, k: nat, j: nat)
    requires AllValid(s) && Valid(lo) && Valid(hi) && Valid(cutoff)
    requires SearchLoop(s, i, lo, hi, cutoff, fuel) == Done(Some(k)) && i <= j < k
    ensures Between(s(j), lo, cutoff)
    ensures i < j ==> !Between(s(j), lo, hi)
    decreases fuel
  {
    if j > i {
      SearchLoopFirst(s, i + 1, lo, hi, cutoff, fuel - 1, k, j);
    }
  }

  /** The loop answers nothing exactly when it reaches a repetition `j`
      outside the window start to the cutoff before any repetition after
      `i` enters the window. */
  lemma {:induction false} SearchLoopNone(s: nat -> DateTime, i: nat, lo: DateTime, hi: DateTime, cutoff: DateTime, fuel: nat) returns (j: nat)
    requires AllValid(s) && Valid(lo) && Valid(hi) && Valid(cutoff)
    requires SearchLoop(s, i, lo, hi, cutoff, fuel) == Done(None)
    ensures i <= j && !Between(s(j), lo, cutoff)
    ensures forall q :: i <= q < j ==> Between(s(q), lo, cutoff)
    ensures forall q :: i < q <= j ==> !Between(s(q), lo, hi)
    decreases fuel
  {
    if !Between(s(i), lo, cutoff) {
      j := i;
    } else {
      j := SearchLoopNone(s, i + 1, lo, hi, cutoff, fuel - 1);
    }
  }

  /** Outside MONTHLY the first start is the event start or nothing. */
  lemma FirstStartIsEventStart<P>(r: Rule, e: Event<P>, lo: DateTime, hi: DateTime, fuel: nat)
    requires Expandable(r, e, lo, hi) && r.frequency.value != Monthly
    ensures
      var res := FirstStartOfEventBetween(r, e, lo, hi, fuel);
      res.Done? && res.value.Some? ==> res.value.value == e.dtstart
  {
    if !Between(e.dtstart, lo, hi) {
      var s := Repeats(r.frequency.value, e.dtstart);
      RepeatsIncrease(r.frequency.value, e.dtstart);
      SearchNeverSteps(s, 0, lo, hi, Cutoff(r, e.dtstart), fuel);
    }
  }

  // ---------------------------------------------------------------------------
  // occurrences_of_event_between

  /** The `while` loop of `occurrences_of_event_between`: a clone for every
      start up to `hi`, pairing start repetition `i` with end repetition
      `j`, and stepping both once per clone. */
  function Generate<P>(e: Event<P>, s: nat -> DateTime, t: nat -> DateTime, i: nat, j: nat, hi: DateTime, fuel: nat): (r: Run<seq<Event<P>>>)
    requires AllValid(s) && Valid(hi)
    ensures r.Done? ==> (|r.value| > 0 <==> AtOrBefore(s(i), hi))
    ensures r.Done? && |r.value| > 0 ==> r.value[0] == Moved(e, s(i), t(j))
    decreases fuel
  {
    if !AtOrBefore(s(i), hi) then Done([])
    else if fuel == 0 then OutOfFuel
    else
      match Generate(e, s, t, i + 1, j + 1, hi, fuel - 1)
      case OutOfFuel => OutOfFuel
      case Done(rest) => Done([Moved(e, s(i), t(j))] + rest)
  }

  /** Clone `m` pairs start repetition `i + m` with end repetition `j + m`,
      and it starts at or before `hi`. */
  lemma {:induction false} GeneratePairs<P>(e: Event<P>, s: nat -> DateTime, t: nat -> DateTime, i: nat, j: nat, hi: DateTime, fuel: nat, m: nat)
    requires AllValid(s) && Valid(hi)
    requires Generate(e, s, t, i, j, hi, fuel).Done? && m < |Generate(e, s, t, i, j, hi, fuel).value|
    ensures Generate(e, s, t, i, j, hi, fuel).value[m] == Moved(e, s(i + m), t(j + m))
    ensures AtOrBefore(s(i + m), hi)
    decreases fuel
  {
    if m == 0 {
      assert s(i + m) == s(i) && t(j + m) == t(j);
    } else {
      GenerateTail(e, s, t, i, j, hi, fuel, m);
      GeneratePairs(e, s, t, i + 1, j + 1, hi, fuel - 1, m - 1);
      assert s(i + 1 + (m - 1)) == s(i + m) && t(j + 1 + (m - 1)) == t(j + m);
    }
  }

  /** Past the first clone, the clones are those the loop makes from the
      next pair of repetitions on. */
  lemma GenerateTail<P>(e: Event<P>, s: nat -> DateTime, t: nat -> DateTime, i: nat, j: nat, hi: DateTime, fuel: nat, m: nat)
    requires AllValid(s) && Valid(hi)
    requires Generate(e, s, t, i, j, hi, fuel).Done? && 0 < m < |Generate(e, s, t, i, j, hi, fuel).value|
    ensures fuel > 0 && Generate(e, s, t, i + 1, j + 1, hi, fuel - 1).Done?
    ensures m - 1 < |Generate(e, s, t, i + 1, j + 1, hi, fuel - 1).value|
    ensures Generate(e, s, t, i, j, hi, fuel).value[m] == Generate(e, s, t, i + 1, j + 1, hi, fuel - 1).value[m - 1]
  {
    var o := Generate(e, s, t, i, j, hi, fuel).value;
    var rest := Generate(e, s, t, i + 1, j + 1, hi, fuel - 1).value;
    assert o == [Moved(e, s(i), t(j))] + rest;
  }

  /** The loop stops at the first start repetition after `hi`. */
  lemma {:induction false} GenerateStops<P>(e: Event<P>, s: nat -> DateTime, t: nat -> DateTime, i: nat, j: nat, hi: DateTime, fuel: nat)
    requires AllValid(s) && Valid(hi)
    requires Generate(e, s, t, i, j, hi, fuel).Done?
    ensures !AtOrBefore(s(i + |Generate(e, s, t, i, j, hi, fuel).value|), hi)
    decreases fuel
  {
    if AtOrBefore(s(i), hi) {
      var rest := Generate(e, s, t, i + 1, j + 1, hi, fuel - 1).value;
      assert |Generate(e, s, t, i, j, hi, fuel).value| == 1 + |rest|;
      GenerateStops(e, s, t, i + 1, j + 1, hi, fuel - 1);
    }
  }

  /** Over increasing starts the loop ends once it has fuel for one step
      per second up to `hi`. */
  lemma {:induction false} GenerateEnds<P>(e: Event<P>, s: nat -> DateTime, t: nat -> DateTime, i: nat, j: nat, hi: DateTime, fuel: nat)
    requires AllValid(s) && Increasing(s) && Valid(hi)
    requires Instant(hi) - Instant(s(i)) < fuel
    ensures Generate(e, s, t, i, j, hi, fuel).Done?
    decreases fuel
  {
    if AtOrBefore(s(i), hi) {
      assert Instant(s(i)) < Instant(s(i + 1));
      GenerateEnds(e, s, t, i + 1, j + 1, hi, fuel - 1);
    }
  }

  /** When no start ever passes `hi`, the loop runs out of any amount of
      fuel. */
  lemma {:induction false} GenerateNeverEnds<P>(e: Event<P>, s: nat -> DateTime, t: nat -> DateTime, i: nat, j: nat, hi: DateTime, fuel: nat)
    requires AllValid(s) && Valid(hi)
    requires forall n: nat :: AtOrBefore(s(n), hi)
    ensures Generate(e, s, t, i, j, hi, fuel) == OutOfFuel
    decreases fuel
  {
    assert AtOrBefore(s(i), hi);
    if fuel > 0 {
      GenerateNeverEnds(e, s, t, i + 1, j + 1, hi, fuel - 1);
    }
  }

  /** The clones once the search has answered `first`: nothing when it
      found no start, else the clones from start repetition `k` on, each
      paired with the end repetition counted from the event's own end. */
  function ExpandFrom<P>(e: Event<P>, s: nat -> DateTime, t: nat -> DateTime, first: Run<Option<nat>>, hi: DateTime, fuel: nat): (r: Run<seq<Event<P>>>)
    requires AllValid(s) && Valid(hi)
    ensures first == Done(None) ==> r == Done([])
  {
    match first
    case OutOfFuel => OutOfFuel
    case Done(None) => Done([])
    case Done(Some(k)) => Generate(e, s, t, k, 0, hi, fuel)
  }

  /** Clone `m` comes from start repetition `k + m`, where `k` is the start
      the search found, and from end repetition `m`. */
  lemma ExpandFromPairs<P>(e: Event<P>, s: nat -> DateTime, t: nat -> DateTime, first: Run<Option<nat>>, hi: DateTime, fuel: nat, m: nat) returns (k: nat)
    requires AllValid(s) && Valid(hi)
    requires ExpandFrom(e, s, t, first, hi, fuel).Done? && m < |ExpandFrom(e, s, t, first, hi, fuel).value|
    ensures first == Done(Some(k))
    ensures ExpandFrom(e, s, t, first, hi, fuel).value[m] == Moved(e, s(k + m), t(m))
    ensures AtOrBefore(s(k + m), hi)
  {
    k := first.value.value;
    GeneratePairs(e, s, t, k, 0, hi, fuel, m);
  }

  /** `occurrences_of_event_between`: nothing when no first start is found;
      otherwise the clones from the first start on, the first one keeping
      the event's own end. */
  function OccurrencesOfEventBetween<P>(r: Rule, e: Event<P>, lo: DateTime, hi: DateTime, fuel: nat): (res: Run<seq<Event<P>>>)
    requires Expandable(r, e, lo, hi)
    ensures res.Done? && |res.value| > 0 ==>
      && Valid(res.value[0].dtstart)
      && Between(res.value[0].dtstart, lo, hi)
      && res.value[0].dtend == e.dtend
  {
    var f := r.frequency.value;
    ExpandFrom(e, Repeats(f, e.dtstart), Repeats(f, e.dtend), FirstIndex(r, e, lo, hi, fuel), hi, fuel)
  }

  /** Occurrence `m` pairs start repetition `k + m` with end repetition `m`,
      where `k` is the repetition the search found in the window: the ends
      lag the starts by `k` steps. Every occurrence keeps the event's
      details and starts at or before `hi`. */
  lemma OccurrencesPairs<P>(r: Rule, e: Event<P>, lo: DateTime, hi: DateTime, fuel: nat, m: nat) returns (k: nat)
    requires Expandable(r, e, lo, hi)
    requires OccurrencesOfEventBetween(r, e, lo, hi, fuel).Done? && m < |OccurrencesOfEventBetween(r, e, lo, hi, fuel).value|
    ensures
      var s, t := Repeats(r.frequency.value, e.dtstart), Repeats(r.frequency.value, e.dtend);
      && FirstIndex(r, e, lo, hi, fuel) == Done(Some(k))
      && OccurrencesOfEventBetween(r, e, lo, hi, fuel).value[m] == Moved(e, s(k + m), t(m))
      && AtOrBefore(s(k + m), hi)
  {
    var f := r.frequency.value;
    k := ExpandFromPairs(e, Repeats(f, e.dtstart), Repeats(f, e.dtend), FirstIndex(r, e, lo, hi, fuel), hi, fuel, m);
  }

  /** Outside MONTHLY an event whose own start lies outside the window gives
      no occurrence, however many of its repetitions fall inside. */
  lemma MissedUnlessStartInWindow<P>(r: Rule, e: Event<P>, lo: DateTime, hi: DateTime, fuel: nat)
    requires Expandable(r, e, lo, hi) && r.frequency.value != Monthly
    requires !Between(e.dtstart, lo, hi)
    ensures OccurrencesOfEventBetween(r, e, lo, hi, fuel) in {Done([]), OutOfFuel}
  {
    RepeatsIncrease(r.frequency.value, e.dtstart);
    SearchNeverSteps(Repeats(r.frequency.value, e.dtstart), 0, lo, hi, Cutoff(r, e.dtstart), fuel);
  }

  /** Over increasing starts and with enough fuel, the loop from the first
      repetitions on yields every start up to `hi`, each paired with the end
      moved on as often, and stops at the first start after `hi`. */
  lemma GenerateAll<P>(e: Event<P>, s: nat -> DateTime, t: nat -> DateTime, hi: DateTime, fuel: nat)
    requires AllValid(s) && Increasing(s) && Valid(hi)
    requires Instant(hi) - Instant(s(0)) < fuel
    ensures Generate(e, s, t, 0, 0, hi, fuel).Done?
    ensures
      var o := Generate(e, s, t, 0, 0, hi, fuel).value;
      && (forall m :: 0 <= m < |o| ==> o[m] == Moved(e, s(m), t(m)))
      && !AtOrBefore(s(|o|), hi)
  {
    GenerateEnds(e, s, t, 0, 0, hi, fuel);
    var o := Generate(e, s, t, 0, 0, hi, fuel).value;
    forall m | 0 <= m < |o|
      ensures o[m] == Moved(e, s(m), t(m))
    {
      GeneratePairs(e, s, t, 0, 0, hi, fuel, m);
    }
    GenerateStops(e, s, t, 0, 0, hi, fuel);
  }

  /** An event whose start lies in the window is expanded by the generation
      loop alone, from the first repetitions on. */
  lemma StartInWindowGenerates<P>(r: Rule, e: Event<P>, lo: DateTime, hi: DateTime, fuel: nat)
    requires Expandable(r, e, lo, hi) && Between(e.dtstart, lo, hi)
    ensures OccurrencesOfEventBetween(r, e, lo, hi, fuel)
      == Generate(e, Repeats(r.frequency.value, e.dtstart), Repeats(r.frequency.value, e.dtend), 0, 0, hi, fuel)
  {
  }

  /** Outside MONTHLY an event whose start lies in the window gives, with
      enough fuel, its repetitions from the start on up to `hi`, start and
      end stepped alike. */
  lemma OccurrencesFromStart<P>(r: Rule, e: Event<P>, lo: DateTime, hi: DateTime, fuel: nat)
    requires Expandable(r, e, lo, hi) && r.frequency.value != Monthly
    requires Between(e.dtstart, lo, hi) && Instant(hi) - Instant(e.dtstart) < fuel
    ensures OccurrencesOfEventBetween(r, e, lo, hi, fuel).Done?
    ensures
      var o := OccurrencesOfEventBetween(r, e, lo, hi, fuel).value;
      && (forall m :: 0 <= m < |o| ==> o[m] == Moved(e, Iterate(r.frequency.value, e.dtstart, m), Iterate(r.frequency.value, e.dtend, m)))
      && !AtOrBefore(Iterate(r.frequency.value, e.dtstart, |o|), hi)
  {
    var f := r.frequency.value;
    RepeatsIncrease(f, e.dtstart);
    StartInWindowGenerates(r, e, lo, hi, fuel);
    GenerateAll(e, Repeats(f, e.dtstart), Repeats(f, e.dtend), hi, fuel);
  }

  /** MONTHLY repetitions of a start all lie before the next year begins,
      so a window reaching into the next year is never left: the
      generation loop runs out of any amount of fuel. */
  lemma MonthlyGenerationNeverEnds<P>(e: Event<P>, i: nat, j: nat, hi: DateTime, fuel: nat)
    requires Valid(e.dtstart) && Valid(e.dtend) && Valid(hi)
    requires DaysBeforeYear(e.dtstart.year + 1) * 86400 <= Instant(hi)
    ensures Generate(e, Repeats(Monthly, e.dtstart), Repeats(Monthly, e.dtend), i, j, hi, fuel) == OutOfFuel
  {
    var s := Repeats(Monthly, e.dtstart);
    forall n: nat
      ensures AtOrBefore(s(n), hi)
    {
      MonthlyRepeatsWithinYear(e.dtstart, hi, n);
    }
    GenerateNeverEnds(e, s, Repeats(Monthly, e.dtend), i, j, hi, fuel);
  }
}

=== FILE: outcomes.dfy ===
/** Failure-carrying wrappers shared by the parser, the serializer and the
    occurrence expander. */
module Outcomes {

  /** A value that may be absent; Ruby's `nil` for an optional field. */
  datatype Option<+T> = None | Some(value: T)

  /** The outcome of an operation that raises on bad input. */
  datatype Result<+T, +E> = Success(value: T) | Failure(error: E)

  /** The outcome of a loop run with a bounded number of iterations: `Done`
      when the loop exited by itself, `OutOfFuel` when the bound ran out first. */
  datatype Run<+T> = Done(value: T) | OutOfFuel
}

=== FILE: patterns.dfy ===
/** Leftmost-match search, the way Ruby's `String#match` runs a regular
    expression: try each start position from left to right and report the
    first one at which the pattern matches. A pattern is modelled as a
    function from the rest of the string (from the start position on) to the
    captured value. The field patterns of rrule.rb are defined here too. */
module Patterns {
  import opened Outcomes
  import opened Strings

  predicate StartsWith(s: string, prefix: string) {
    |prefix| <= |s| && s[..|prefix|] == prefix
  }

  /** True when no start position of `s` lets `at` match. */
  predicate NoMatch<T>(s: string, at: string -> Option<T>) {
    forall q :: 0 <= q <= |s| ==> at(s[q..]).None?
  }

  /** True when `p` is the first start position of `s` at which `at` matches. */
  predicate FirstMatchAt<T>(s: string, at: string -> Option<T>, p: nat) {
    && p <= |s|
    && at(s[p..]).Some?
    && forall q :: 0 <= q < p ==> at(s[q..]).None?
  }

  function LeftmostFrom<T>(s: string, at: string -> Option<T>, i: nat): (r: Option<nat>)
    requires i <= |s| + 1
    requires forall q :: 0 <= q < i ==> at(s[q..]).None?
    ensures r.Some? ==> FirstMatchAt(s, at, r.value)
    ensures r.None? ==> NoMatch(s, at)
    decreases |s| + 1 - i
  {
    if i > |s| then None
    else if at(s[i..]).Some? then Some(i)
    else LeftmostFrom(s, at, i + 1)
  }

  /** The value captured by the leftmost match of `at` in `s`, if any. */
  function Search<T>(s: string, at: string -> Option<T>): (r: Option<T>)
    ensures r.None? <==> NoMatch(s, at)
    ensures r.Some? ==> exists p: nat :: FirstMatchAt(s, at, p) && r == at(s[p..])
  {
    match LeftmostFrom(s, at, 0)
    case None => None
    case Some(p) => at(s[p..])
  }

  /** The first match position is unique, so naming it determines the search. */
  lemma SearchAt<T>(s: string, at: string -> Option<T>, p: nat)
    requires FirstMatchAt(s, at, p)
    ensures Search(s, at) == at(s[p..])
  {
    var r := Search(s, at);
    var p': nat :| FirstMatchAt(s, at, p') && r == at(s[p'..]);
    if p' < p {
      assert at(s[p'..]).None?;
    }
  }

  /** A prefix at none of whose positions the pattern matches does not change
      what the search finds. */
  lemma SearchSkips<T>(a: string, b: string, at: string -> Option<T>)
    requires forall q :: 0 <= q < |a| ==> at((a + b)[q..]).None?
    ensures Search(a + b, at) == Search(b, at)
  {
    var s := a + b;
    forall q | 0 <= q <= |b|
      ensures s[|a| + q..] == b[q..]
    {
    }
    if Search(b, at).None? {
      forall q | 0 <= q <= |s|
        ensures at(s[q..]).None?
      {
        if q >= |a| {
          assert s[q..] == b[q - |a|..];
        }
      }
    } else {
      var p: nat :| FirstMatchAt(b, at, p) && Search(b, at) == at(b[p..]);
      forall q | 0 <= q < |a| + p
        ensures at(s[q..]).None?
      {
        if q >= |a| {
          assert s[q..] == b[q - |a|..];
        }
      }
      assert s[|a| + p..] == b[p..];
      SearchAt(s, at, |a| + p);
    }
  }

  /** A pattern that can only match where a `;` stands. */
  ghost predicate SemicolonLed<T>(at: string -> Option<T>) {
    forall t :: at(t).Some? ==> |t| > 0 && t[0] == ';'
  }

  /** A prefix free of `;` does not change what a `;`-led pattern finds. */
  lemma SearchSkipsFree<T>(a: string, b: string, at: string -> Option<T>)
    requires SemicolonLed(at) && Free(a, ';')
    ensures Search(a + b, at) == Search(b, at)
  {
    forall q | 0 <= q < |a|
      ensures at((a + b)[q..]).None?
    {
      assert (a + b)[q..][0] == a[q];
    }
    SearchSkips(a, b, at);
  }

  // ---------------------------------------------------------------------------
  // The pieces the field patterns of rrule.rb are built from

  /** `(;|$)`: a `;`, the end of the string, or the end of a line (Ruby's `$`
      matches before every line feed). */
  predicate AtFieldEnd(t: string) {
    |t| == 0 || t[0] == ';' || t[0] == '\n'
  }

  /** `(.*?)(;|$)`: the shortest run that ends at a field end; `.` does not
      cross a line feed. */
  function TakeLine(t: string): (r: string)
    ensures StartsWith(t, r) && AtFieldEnd(t[|r|..])
    ensures Free(r, ';') && Free(r, '\n')
  {
    if AtFieldEnd(t) then "" else [t[0]] + TakeLine(t[1..])
  }

  /** `\d*` taken greedily. */
  function DigitRun(t: string): (r: string)
    ensures StartsWith(t, r) && AllDigits(r)
    ensures |r| < |t| ==> !IsDigit(t[|r|])
  {
    if |t| > 0 && IsDigit(t[0]) then [t[0]] + DigitRun(t[1..]) else ""
  }

  /** `;KEY=(.*?)(;|$)`, and equally `;KEY=([+-]?.*?)(;|$)`: the optional sign
      can only take a character that `.*?` would take anyway. Once `;KEY=`
      is there the rest always matches. */
  function LazyFieldAt(t: string, key: string): (r: Option<string>)
    ensures r.Some? <==> StartsWith(t, ";" + key + "=")
    ensures r.Some? ==> Free(r.value, ';') && Free(r.value, '\n')
    ensures r.Some? ==> LazyMatch(t, key, r.value)
  {
    var lit := ";" + key + "=";
    if StartsWith(t, lit) then Some(TakeLine(t[|lit|..])) else None
  }

  /** `t` is `;KEY=`, then `v`, then a field end, and `v` holds neither `;`
      nor a line feed: `v` is what `;KEY=(.*?)(;|$)` captures in `t`. */
  predicate LazyMatch(t: string, key: string, v: string) {
    && StartsWith(t, ";" + key + "=")
    && StartsWith(t[|key| + 2..], v)
    && AtFieldEnd(t[|key| + 2 + |v|..])
    && Free(v, ';') && Free(v, '\n')
  }

  /** The shortest run that ends at a field end is the only one free of `;`
      and line feeds. */
  lemma {:induction false} TakeLineUnique(v: string, rest: string)
    requires Free(v, ';') && Free(v, '\n') && AtFieldEnd(rest)
    ensures TakeLine(v + rest) == v
    decreases |v|
  {
    if |v| > 0 {
      assert (v + rest)[1..] == v[1..] + rest;
      TakeLineUnique(v[1..], rest);
      assert [v[0]] + v[1..] == v;
    } else {
      assert v + rest == rest;
    }
  }

  /** Every text of that shape is matched, with exactly that capture. */
  lemma LazyFieldAtComplete(t: string, key: string, v: string)
    requires LazyMatch(t, key, v)
    ensures LazyFieldAt(t, key) == Some(v)
  {
    var n := |key| + 2;
    assert t[n..] == v + t[n + |v|..];
    TakeLineUnique(v, t[n + |v|..]);
  }

  /** A digit run `d` already ends at a digit-free rest, so `\d*` takes
      exactly `d`. */
  lemma {:induction false} DigitRunClean(v: string, rest: string)
    requires AllDigits(v) && (|rest| == 0 || !IsDigit(rest[0]))
    ensures DigitRun(v + rest) == v
    decreases |v|
  {
    if |v| > 0 {
      assert (v + rest)[1..] == v[1..] + rest;
      DigitRunClean(v[1..], rest);
      assert [v[0]] + v[1..] == v;
    } else {
      assert v + rest == rest;
    }
  }

  /** `t` starts with `;KEY=` and the non-empty digit run `d`, and a field end
      follows. */
  predicate DigitsMatch(t: string, key: string, d: string) {
    && |d| > 0
    && AllDigits(d)
    && StartsWith(t, ";" + key + "=" + d)
    && AtFieldEnd(t[|key| + 2 + |d|..])
  }

  /** `;KEY=(\d+)(;|$)`, converted with `to_i`. Because `\d+` is greedy and a
      digit is neither `;` nor a line feed, only the whole digit run can be
      followed by a field end. */
  function DigitsFieldAt(t: string, key: string): (r: Option<nat>)
    ensures r.Some? ==> StartsWith(t, ";" + key + "=")
    ensures r.Some? ==> exists d :: DigitsMatch(t, key, d) && r.value == DigitsValue(d)
  {
    var lit := ";" + key + "=";
    if StartsWith(t, lit) then
      var rest := t[|lit|..];
      var d := DigitRun(rest);
      if |d| > 0 && AtFieldEnd(rest[|d|..]) then
        assert t[..|lit| + |d|] == t[..|lit|] + rest[..|d|];
        assert lit + d == ";" + key + "=" + d;
        assert t[|key| + 2 + |d|..] == rest[|d|..];
        assert DigitsMatch(t, key, d);
        Some(DigitsValue(d))
      else None
    else None
  }

  /** Every `;KEY=` followed by a digit run and a field end is accepted, with
      the value of that run. */
  lemma DigitsFieldAtComplete(t: string, key: string, d: string)
    requires DigitsMatch(t, key, d)
    ensures DigitsFieldAt(t, key) == Some(DigitsValue(d))
  {
    var lit := ";" + key + "=";
    assert lit + d == ";" + key + "=" + d;
    assert t[..|lit|] == (lit + d)[..|lit|] == lit;
    var rest := t[|lit|..];
    var tail := t[|lit| + |d|..];
    assert rest[..|d|] == (lit + d)[|lit|..] == d;
    assert rest == d + tail;
    DigitRunClean(d, tail);
    assert rest[|d|..] == tail;
  }

  /** The pattern `;KEY=(.*?)(;|$)` as a value. */
  function LazyField(key: string): string -> Option<string> {
    t => LazyFieldAt(t, key)
  }

  /** The pattern `;KEY=(\d+)(;|$)` as a value. */
  function DigitsField(key: string): string -> Option<nat> {
    t => DigitsFieldAt(t, key)
  }

  // ---------------------------------------------------------------------------
  // Searching the field patterns over a whole value

  /** Position `p` of `s` is the first to start with `;KEY=`. */
  predicate FirstField(s: string, key: string, p: nat) {
    && p <= |s|
    && StartsWith(s[p..], ";" + key + "=")
    && forall q :: 0 <= q < p ==> !StartsWith(s[q..], ";" + key + "=")
  }

  /** Some position of `s` starts with `;KEY=`. */
  predicate HasField(s: string, key: string) {
    exists p :: 0 <= p <= |s| && StartsWith(s[p..], ";" + key + "=")
  }

  /** `value.match(/;KEY=(.*?)(;|$)/)` finds something exactly when `;KEY=`
      occurs, and what it captures holds neither `;` nor a line feed. */
  lemma SearchLazyField(s: string, key: string)
    ensures Search(s, LazyField(key)).Some? <==> HasField(s, key)
    ensures Search(s, LazyField(key)).Some? ==>
      Free(Search(s, LazyField(key)).value, ';') && Free(Search(s, LazyField(key)).value, '\n')
    ensures Search(s, LazyField(key)).Some? ==>
      exists p: nat :: FirstField(s, key, p) && LazyMatch(s[p..], key, Search(s, LazyField(key)).value)
  {
    var at := LazyField(key);
    if HasField(s, key) {
      var p :| 0 <= p <= |s| && StartsWith(s[p..], ";" + key + "=");
      assert at(s[p..]) == LazyFieldAt(s[p..], key);
    }
    if Search(s, at).Some? {
      var p: nat :| FirstMatchAt(s, at, p) && Search(s, at) == at(s[p..]);
      assert at(s[p..]) == LazyFieldAt(s[p..], key);
      forall q | 0 <= q < p
        ensures !StartsWith(s[q..], ";" + key + "=")
      {
        assert at(s[q..]) == LazyFieldAt(s[q..], key);
      }
      assert FirstField(s, key, p);
    }
  }

  /** `value.match(/;KEY=(\d+)(;|$)/)` finds something exactly when some
      `;KEY=` is followed by a digit run and a field end, and it reads the
      value of such a run. */
  lemma SearchDigitsField(s: string, key: string)
    ensures Search(s, DigitsField(key)).Some? <==>
      exists p, d :: 0 <= p <= |s| && DigitsMatch(s[p..], key, d)
    ensures Search(s, DigitsField(key)).Some? ==>
      exists p, d :: 0 <= p <= |s| && DigitsMatch(s[p..], key, d) && Search(s, DigitsField(key)).value == DigitsValue(d)
  {
    var at := DigitsField(key);
    if exists p, d :: 0 <= p <= |s| && DigitsMatch(s[p..], key, d) {
      var p, d :| 0 <= p <= |s| && DigitsMatch(s[p..], key, d);
      DigitsFieldAtComplete(s[p..], key, d);
      assert at(s[p..]) == DigitsFieldAt(s[p..], key);
    }
    if Search(s, at).Some? {
      var p: nat :| FirstMatchAt(s, at, p) && Search(s, at) == at(s[p..]);
      assert at(s[p..]) == DigitsFieldAt(s[p..], key);
      var d :| DigitsMatch(s[p..], key, d) && at(s[p..]).value == DigitsValue(d);
    }
  }
}

=== FILE: roundtrip.dfy ===
/** Re-parsing what `to_ical` prints. The printed value is `FREQ=...`
    followed by `;KEY=value` for each field that is set; since no printed
    value holds a `;` or a line feed, every `;KEY=` pattern can only match at
    one of those separators, and it finds the field of its own key. */
module RoundTrip {
  import opened Outcomes
  import opened Strings
  import opened Patterns
  import opened Calendar
  import opened RRule

  /** `;` followed by each part in turn. */
  function Prefixed(ps: seq<string>): (s: string)
    ensures s == "" || s[0] == ';'
  {
    if |ps| == 0 then "" else ";" + ps[0] + Prefixed(ps[1..])
  }

  lemma {:induction false} JoinCons(p0: string, ps: seq<string>)
    ensures Join([p0] + ps, ';') == p0 + Prefixed(ps)
    decreases |ps|
  {
    if |ps| > 0 {
      assert ([p0] + ps)[1..] == ps;
      if |ps| == 1 {
        assert Prefixed(ps[1..]) == "";
      } else {
        JoinCons(ps[0], ps[1..]);
        assert [ps[0]] + ps[1..] == ps;
      }
    }
  }

  /** Text free of the characters that end a field. */
  predicate CleanText(s: string) {
    Free(s, ';') && Free(s, '\n')
  }

  /** A key as `to_ical` prints it: no `=`, `;` or line feed. */
  predicate CleanKey(k: string) {
    Free(k, '=') && CleanText(k)
  }

  predicate CleanEntries(es: seq<Entry>) {
    forall j :: 0 <= j < |es| ==>
      CleanKey(es[j].key) && (es[j].text.Some? ==> CleanText(es[j].text.value))
  }

  predicate DistinctKeys(es: seq<Entry>) {
    forall a, b :: 0 <= a < b < |es| ==> es[a].key != es[b].key
  }

  /** The text of `t` before the first `c`. */
  function Before(t: string, c: char): string {
    if |t| == 0 || t[0] == c then "" else [t[0]] + Before(t[1..], c)
  }

  lemma {:induction false} BeforeKey(k: string, tail: string)
    requires Free(k, '=')
    ensures Before(k + "=" + tail, '=') == k
    decreases |k|
  {
    if |k| > 0 {
      assert (k + "=" + tail)[1..] == k[1..] + "=" + tail;
      BeforeKey(k[1..], tail);
      assert [k[0]] + k[1..] == k;
    }
  }

  /** A `;`-led key literal is found at the start of a printed field only
      when the field has that very key, because neither key holds `=`. */
  lemma KeyPrefix(k: string, key: string, tail: string)
    requires Free(k, '=') && Free(key, '=')
    ensures StartsWith(";" + k + "=" + tail, ";" + key + "=") <==> k == key
  {
    var s, lit := ";" + k + "=" + tail, ";" + key + "=";
    if StartsWith(s, lit) {
      assert s[1..] == k + "=" + tail;
      assert s[1..] == key + "=" + s[|lit|..];
      BeforeKey(k, tail);
      BeforeKey(key, s[|lit|..]);
    }
  }

  /** The value of the first set entry for which `want` gives one. */
  function FirstWant<T>(es: seq<Entry>, want: Entry -> Option<T>): Option<T> {
    if |es| == 0 then None
    else if es[0].text.Some? && want(es[0]).Some? then want(es[0])
    else FirstWant(es[1..], want)
  }

  /** One step of a search over `;`-separated fields: a `;`-led pattern
      either matches at the first `;` or only after the first field. */
  lemma SearchFieldStep<T>(part: string, rest: string, m: string -> Option<T>)
    requires SemicolonLed(m) && Free(part, ';')
    ensures Search(";" + part + rest, m) == if m(";" + part + rest).Some? then m(";" + part + rest) else Search(rest, m)
  {
    var s := ";" + part + rest;
    assert s[0..] == s;
    if m(s).Some? {
      SearchAt(s, m, 0);
    } else {
      assert s == [';'] + (part + rest);
      SearchSkips([';'], part + rest, m);
      SearchSkipsFree(part, rest, m);
    }
  }

  /** The text from entry `j`'s printed field to the end. */
  function FieldFrom(es: seq<Entry>, j: nat): string
    requires j < |es| && es[j].text.Some?
  {
    ";" + es[j].key + "=" + es[j].text.value + Prefixed(Printed(es[j + 1..]))
  }

  /** At each printed field, `m` yields what `want` says of that entry. */
  ghost predicate Answers<T>(es: seq<Entry>, m: string -> Option<T>, want: Entry -> Option<T>) {
    forall j :: 0 <= j < |es| && es[j].text.Some? ==> m(FieldFrom(es, j)) == want(es[j])
  }

  lemma AnswersTail<T>(es: seq<Entry>, m: string -> Option<T>, want: Entry -> Option<T>)
    requires |es| > 0 && Answers(es, m, want)
    ensures Answers(es[1..], m, want)
  {
    forall j | 0 <= j < |es| - 1 && es[1..][j].text.Some?
      ensures m(FieldFrom(es[1..], j)) == want(es[1..][j])
    {
      assert es[1..][j + 1..] == es[j + 2..];
      assert FieldFrom(es[1..], j) == FieldFrom(es, j + 1);
    }
  }

  lemma PrintedHead(es: seq<Entry>)
    requires |es| > 0 && CleanEntries(es)
    ensures es[0].text.None? ==> Printed(es) == Printed(es[1..])
    ensures es[0].text.Some? ==>
      && FieldFrom(es, 0) == ";" + (es[0].key + "=" + es[0].text.value) + Prefixed(Printed(es[1..]))
      && FieldFrom(es, 0) == Prefixed(Printed(es))
      && Free(es[0].key + "=" + es[0].text.value, ';')
  {
    if es[0].text.Some? {
      PrintedField(es);
      FieldFree(es[0].key, es[0].text.value);
    }
  }

  lemma PrintedField(es: seq<Entry>)
    requires |es| > 0 && es[0].text.Some?
    ensures FieldFrom(es, 0) == ";" + (es[0].key + "=" + es[0].text.value) + Prefixed(Printed(es[1..]))
    ensures FieldFrom(es, 0) == Prefixed(Printed(es))
  {
    var part := es[0].key + "=" + es[0].text.value;
    var ps := Printed(es);
    assert ps == [part] + Printed(es[1..]);
    assert ps[0] == part && ps[1..] == Printed(es[1..]);
    assert es[0 + 1..] == es[1..];
  }

  lemma FieldFree(k: string, v: string)
    requires CleanKey(k) && CleanText(v)
    ensures Free(k + "=" + v, ';') && Free(k + "=" + v, '\n')
  {
    assert k + "=" + v == k + ("=" + v);
  }

  /** A `;`-led pattern searched over printed fields finds what it finds at
      the first field where it matches. */
  lemma {:induction false} SearchEntries<T>(es: seq<Entry>, m: string -> Option<T>, want: Entry -> Option<T>)
    requires SemicolonLed(m) && CleanEntries(es) && Answers(es, m, want)
    ensures Search(Prefixed(Printed(es)), m) == FirstWant(es, want)
    decreases |es|
  {
    if |es| == 0 {
      assert NoMatch("", m);
    } else {
      AnswersTail(es, m, want);
      SearchEntries(es[1..], m, want);
      PrintedHead(es);
      if es[0].text.Some? {
        SearchFieldStep(es[0].key + "=" + es[0].text.value, Prefixed(Printed(es[1..])), m);
      }
    }
  }

  /** With distinct keys, only the entry of its own key can answer. */
  lemma {:induction false} FirstWantOfKey<T>(es: seq<Entry>, want: Entry -> Option<T>, i: nat)
    requires DistinctKeys(es) && i < |es|
    requires forall j :: 0 <= j < |es| && es[j].key != es[i].key ==> want(es[j]).None?
    ensures FirstWant(es, want) == if es[i].text.Some? then want(es[i]) else None
    decreases |es|
  {
    if i > 0 {
      FirstWantOfKey(es[1..], want, i - 1);
    } else if !(es[0].text.Some? && want(es[0]).Some?) {
      FirstWantNone(es[1..], want, es[0].key);
    }
  }

  lemma {:induction false} FirstWantNone<T>(es: seq<Entry>, want: Entry -> Option<T>, key: string)
    requires forall j :: 0 <= j < |es| ==> es[j].key != key
    requires forall j :: 0 <= j < |es| && es[j].key != key ==> want(es[j]).None?
    ensures FirstWant(es, want).None?
    decreases |es|
  {
    if |es| > 0 {
      FirstWantNone(es[1..], want, key);
    }
  }

  // ---------------------------------------------------------------------------
  // The field patterns at a printed field

  lemma LazyFieldLocal(k: string, v: string, rest: string, key: string)
    requires CleanKey(k) && CleanText(v) && Free(key, '=')
    requires rest == "" || rest[0] == ';'
    ensures LazyField(key)(";" + k + "=" + v + rest) == if k == key then Some(v) else None
  {
    var t := ";" + k + "=" + v + rest;
    assert t == ";" + k + "=" + (v + rest);
    KeyPrefix(k, key, v + rest);
    if k == key {
      assert t[|";" + key + "="|..] == v + rest;
      TakeLineUnique(v, rest);
    }
  }

  lemma DigitsFieldLocal(k: string, v: string, rest: string, key: string)
    requires CleanKey(k) && Free(key, '=')
    requires k == key ==> AllDigits(v) && |v| > 0
    requires rest == "" || rest[0] == ';'
    ensures DigitsField(key)(";" + k + "=" + v + rest) == if k == key then Some(DigitsValue(v)) else None
  {
    if k == key {
      DigitsFieldOwnKey(key, v, rest);
    } else {
      DigitsFieldOtherKey(k, v, rest, key);
    }
  }

  lemma DigitsFieldOtherKey(k: string, v: string, rest: string, key: string)
    requires CleanKey(k) && Free(key, '=') && k != key
    ensures DigitsFieldAt(";" + k + "=" + v + rest, key).None?
  {
    var t := ";" + k + "=" + v + rest;
    assert t == ";" + k + "=" + (v + rest);
    KeyPrefix(k, key, v + rest);
  }

  lemma DigitsFieldOwnKey(key: string, v: string, rest: string)
    requires AllDigits(v) && |v| > 0
    requires rest == "" || rest[0] == ';'
    ensures DigitsFieldAt(";" + key + "=" + v + rest, key) == Some(DigitsValue(v))
  {
    ConcatAssoc(";" + key + "=", v, rest);
    DigitsAfterKey(key, v, rest);
  }

  lemma DigitsAfterKey(key: string, v: string, rest: string)
    requires AllDigits(v) && |v| > 0
    requires rest == "" || rest[0] == ';'
    ensures DigitsFieldAt((";" + key + "=") + (v + rest), key) == Some(DigitsValue(v))
  {
    PrefixOfConcat(";" + key + "=", v + rest);
    DigitRunClean(v, rest);
    PrefixOfConcat(v, rest);
  }

  lemma ConcatAssoc(a: string, b: string, c: string)
    ensures a + b + c == a + (b + c)
  {
  }

  lemma PrefixOfConcat(a: string, b: string)
    ensures StartsWith(a + b, a) && (a + b)[|a|..] == b
  {
    assert (a + b)[..|a|] == a;
  }

  lemma WkstLocal(k: string, v: string, rest: string, d: Day)
    requires CleanKey(k)
    requires k == "WKST" ==> v == DayName(d)
    requires rest == "" || rest[0] == ';'
    ensures WkstAt(";" + k + "=" + v + rest) == if k == "WKST" then Some(d) else None
  {
    var t := ";" + k + "=" + v + rest;
    assert t == ";" + k + "=" + (v + rest);
    KeyPrefix(k, "WKST", v + rest);
    if k == "WKST" {
      assert t[6..] == v + rest;
      assert t[8..] == rest;
      assert StartsWith(t[6..], DayName(d));
    }
  }

  lemma LazyFieldLed(key: string)
    ensures SemicolonLed(LazyField(key))
  {
    forall t | LazyField(key)(t).Some?
      ensures |t| > 0 && t[0] == ';'
    {
      assert t[..|";" + key + "="|][0] == ';';
    }
  }

  lemma DigitsFieldLed(key: string)
    ensures SemicolonLed(DigitsField(key))
  {
    forall t | DigitsField(key)(t).Some?
      ensures |t| > 0 && t[0] == ';'
    {
      assert t[..|";" + key + "="|][0] == ';';
    }
  }

  lemma WkstLed()
    ensures SemicolonLed(WkstAt)
  {
    forall t | WkstAt(t).Some?
      ensures |t| > 0 && t[0] == ';'
    {
      assert t[..6][0] == ';';
    }
  }

  lemma FreqAtName(f: Frequency, rest: string)
    ensures FreqAt("FREQ=" + FrequencyName(f) + rest) == Some(f)
  {
    PrefixOfConcat(FreqText(f), rest);
    FreqAtComplete(FreqText(f) + rest, f);
  }

  /** The text of a `Weekday` from the parser reads back as that `Weekday`. */
  lemma WeekdayReparses(w: Weekday)
    requires PositionText(w.position)
    ensures Search(WeekdayText(w), WeekdayAt) == Some(w)
  {
    var t := WeekdayText(w);
    assert WeekdayAt(t) == Some(w) by {
      WeekdayAtText(w.position, w.day);
    }
    assert t[0..] == t;
    SearchAt(t, WeekdayAt, 0);
  }

  lemma WeekdayAtText(p: string, d: Day)
    requires PositionText(p)
    ensures WeekdayAt(p + DayName(d)) == Some(Weekday(d, p))
  {
    PositionRun(p, d);
    PrefixOfConcat(p, DayName(d));
  }

  /** The `[+-]?\d*` part of the weekday pattern ends where the position text does. */
  lemma PositionRun(p: string, d: Day)
    requires PositionText(p)
    ensures
      var t := p + DayName(d);
      var sign := if |t| > 0 && (t[0] == '+' || t[0] == '-') then 1 else 0;
      sign + |DigitRun(t[sign..])| == |p|
  {
    var t := p + DayName(d);
    var name := DayName(d);
    var sign := if |t| > 0 && (t[0] == '+' || t[0] == '-') then 1 else 0;
    assert sign <= |p|;
    assert t[sign..] == p[sign..] + name;
    DigitRunClean(p[sign..], name);
  }

  // ---------------------------------------------------------------------------
  // The field patterns over all printed fields

  /** What `;KEY=(.*?)(;|$)` captures at each printed field. */
  function LazyWant(key: string): Entry -> Option<string> {
    (e: Entry) => if e.key == key then e.text else None
  }

  /** What `;KEY=(\d+)(;|$)` yields at each printed field. */
  function DigitsWant(key: string): Entry -> Option<nat> {
    (e: Entry) => if e.key == key && e.text.Some? && AllDigits(e.text.value) then Some(DigitsValue(e.text.value)) else None
  }

  /** What the WKST pattern yields at each printed field. */
  function WkstWant(d: Day): Entry -> Option<Day> {
    (e: Entry) => if e.key == "WKST" then Some(d) else None
  }

  lemma LazyOverEntries(es: seq<Entry>, i: nat)
    requires CleanEntries(es) && DistinctKeys(es) && i < |es|
    ensures Search(Prefixed(Printed(es)), LazyField(es[i].key)) == es[i].text
  {
    var key := es[i].key;
    LazyFieldLed(key);
    LazyAnswers(es, key);
    SearchEntries(es, LazyField(key), LazyWant(key));
    FirstWantOfKey(es, LazyWant(key), i);
  }

  lemma LazyAnswers(es: seq<Entry>, key: string)
    requires CleanEntries(es) && Free(key, '=')
    ensures Answers(es, LazyField(key), LazyWant(key))
  {
    forall j | 0 <= j < |es| && es[j].text.Some?
      ensures LazyField(key)(FieldFrom(es, j)) == LazyWant(key)(es[j])
    {
      LazyFrom(es, key, j);
    }
  }

  lemma DigitsOverEntries(es: seq<Entry>, i: nat)
    requires CleanEntries(es) && DistinctKeys(es) && i < |es|
    requires es[i].text.Some? ==> AllDigits(es[i].text.value) && |es[i].text.value| > 0
    ensures es[i].text.None? ==> Search(Prefixed(Printed(es)), DigitsField(es[i].key)).None?
    ensures es[i].text.Some? ==> Search(Prefixed(Printed(es)), DigitsField(es[i].key)) == Some(DigitsValue(es[i].text.value))
  {
    var key := es[i].key;
    DigitsFieldLed(key);
    DigitsAnswers(es, i);
    SearchEntries(es, DigitsField(key), DigitsWant(key));
    FirstWantOfKey(es, DigitsWant(key), i);
  }

  lemma DigitsAnswers(es: seq<Entry>, i: nat)
    requires CleanEntries(es) && DistinctKeys(es) && i < |es|
    requires es[i].text.Some? ==> AllDigits(es[i].text.value) && |es[i].text.value| > 0
    ensures Answers(es, DigitsField(es[i].key), DigitsWant(es[i].key))
  {
    forall j | 0 <= j < |es| && es[j].text.Some?
      ensures DigitsField(es[i].key)(FieldFrom(es, j)) == DigitsWant(es[i].key)(es[j])
    {
      DigitsFrom(es, i, j);
    }
  }

  lemma WkstOverEntries(es: seq<Entry>, i: nat, d: Day)
    requires CleanEntries(es) && DistinctKeys(es) && i < |es|
    requires es[i].key == "WKST" && (es[i].text.Some? ==> es[i].text.value == DayName(d))
    ensures Search(Prefixed(Printed(es)), WkstAt) == if es[i].text.Some? then Some(d) else None
  {
    WkstLed();
    WkstAnswers(es, i, d);
    SearchEntries(es, WkstAt, WkstWant(d));
    FirstWantOfKey(es, WkstWant(d), i);
  }

  lemma WkstAnswers(es: seq<Entry>, i: nat, d: Day)
    requires CleanEntries(es) && DistinctKeys(es) && i < |es|
    requires es[i].key == "WKST" && (es[i].text.Some? ==> es[i].text.value == DayName(d))
    ensures Answers(es, WkstAt, WkstWant(d))
  {
    forall j | 0 <= j < |es| && es[j].text.Some?
      ensures WkstAt(FieldFrom(es, j)) == WkstWant(d)(es[j])
    {
      WkstFrom(es, i, d, j);
    }
  }

  lemma LazyFrom(es: seq<Entry>, key: string, j: nat)
    requires CleanEntries(es) && Free(key, '=')
    requires j < |es| && es[j].text.Some?
    ensures LazyField(key)(FieldFrom(es, j)) == if es[j].key == key then es[j].text else None
  {
    LazyFieldLocal(es[j].key, es[j].text.value, Prefixed(Printed(es[j + 1..])), key);
  }

  lemma DigitsFrom(es: seq<Entry>, i: nat, j: nat)
    requires CleanEntries(es) && DistinctKeys(es) && i < |es|
    requires es[i].text.Some? ==> AllDigits(es[i].text.value) && |es[i].text.value| > 0
    requires j < |es| && es[j].text.Some?
    ensures DigitsField(es[i].key)(FieldFrom(es, j))
      == if es[j].key == es[i].key then Some(DigitsValue(es[j].text.value)) else None
  {
    if es[j].key == es[i].key {
      assert j == i;
    }
    DigitsFieldLocal(es[j].key, es[j].text.value, Prefixed(Printed(es[j + 1..])), es[i].key);
  }

  lemma WkstFrom(es: seq<Entry>, i: nat, d: Day, j: nat)
    requires CleanEntries(es) && DistinctKeys(es) && i < |es|
    requires es[i].key == "WKST" && (es[i].text.Some? ==> es[i].text.value == DayName(d))
    requires j < |es| && es[j].text.Some?
    ensures WkstAt(FieldFrom(es, j)) == if es[j].key == "WKST" then Some(d) else None
  {
    if es[j].key == "WKST" {
      assert j == i;
    }
    WkstLocal(es[j].key, es[j].text.value, Prefixed(Printed(es[j + 1..])), d);
  }

  // ---------------------------------------------------------------------------
  // The printed rule

  predicate ListPrintsCleanly(l: Option<seq<int>>, renderList: seq<int> -> string) {
    l.Some? ==> CleanText(renderList(l.value))
  }

  /** What the printers outside rrule.rb must guarantee for a printed rule to
      read back: no printed value ends a field early, and `DateTime.parse`
      accepts what `DateTime#to_ical` prints. */
  predicate PrintsCleanly(r: Rule, renderDate: DateTime -> string, renderList: seq<int> -> string, parseDate: DateParser) {
    && (r.until.Some? ==> CleanText(renderDate(r.until.value)) && parseDate(renderDate(r.until.value)).Some?)
    && ListPrintsCleanly(r.byList.bySecond, renderList)
    && ListPrintsCleanly(r.byList.byMinute, renderList)
    && ListPrintsCleanly(r.byList.byHour, renderList)
    && ListPrintsCleanly(r.byList.byMonthDay, renderList)
    && ListPrintsCleanly(r.byList.byYearDay, renderList)
    && ListPrintsCleanly(r.byList.byWeekNo, renderList)
    && ListPrintsCleanly(r.byList.byMonth, renderList)
    && ListPrintsCleanly(r.byList.bySetPos, renderList)
  }

  lemma DigitsAreClean(s: string)
    requires AllDigits(s)
    ensures CleanText(s) && Free(s, ',')
  {
  }

  lemma PositionTextClean(p: string)
    requires PositionText(p)
    ensures CleanText(p) && Free(p, ',')
  {
    if |p| > 0 && (p[0] == '+' || p[0] == '-') {
      assert forall i :: 1 <= i < |p| ==> p[i] == p[1..][i - 1];
    }
  }

  lemma WeekdayTextClean(w: Weekday)
    requires PositionText(w.position)
    ensures CleanText(WeekdayText(w)) && Free(WeekdayText(w), ',') && |WeekdayText(w)| > 0
  {
    PositionTextClean(w.position);
    var t := WeekdayText(w);
    assert forall i :: |w.position| <= i < |t| ==> t[i] == DayName(w.day)[i - |w.position|];
  }

  lemma {:induction false} JoinFree(parts: seq<string>, sep: char, c: char)
    requires c != sep
    requires forall i :: 0 <= i < |parts| ==> Free(parts[i], c)
    ensures Free(Join(parts, sep), c)
    decreases |parts|
  {
    if |parts| > 1 {
      JoinFree(parts[1..], sep, c);
    }
  }

  function WeekdayTexts(ws: seq<Weekday>): seq<string> {
    seq(|ws|, i requires 0 <= i < |ws| => WeekdayText(ws[i]))
  }

  lemma WeekdaysTextClean(ws: seq<Weekday>)
    requires forall i :: 0 <= i < |ws| ==> PositionText(ws[i].position)
    ensures CleanText(WeekdaysText(ws))
  {
    var ts := WeekdayTexts(ws);
    forall i | 0 <= i < |ts|
      ensures Free(ts[i], ';') && Free(ts[i], '\n')
    {
      WeekdayTextClean(ws[i]);
    }
    JoinFree(ts, ',', ';');
    JoinFree(ts, ',', '\n');
  }

  lemma OptionalKeysClean()
    ensures forall i :: 0 <= i < |OptionalKeys| ==> CleanKey(OptionalKeys[i])
    ensures forall a, b :: 0 <= a < b < |OptionalKeys| ==> OptionalKeys[a] != OptionalKeys[b]
  {
    OptionalKeysFree();
    OptionalKeysDistinct();
  }

  lemma OptionalKeysFree()
    ensures forall i :: 0 <= i < |OptionalKeys| ==> CleanKey(OptionalKeys[i])
  {
    forall i | 0 <= i < |OptionalKeys|
      ensures CleanKey(OptionalKeys[i])
    {
      UpperClean(OptionalKeys[i]);
    }
  }

  predicate Upper(k: string) {
    forall i :: 0 <= i < |k| ==> 'A' <= k[i] <= 'Z'
  }

  /** A key of capital letters holds none of `=`, `;` or a line feed. */
  lemma UpperClean(k: string)
    requires Upper(k)
    ensures CleanKey(k)
  {
  }

  lemma OptionalKeysDistinct()
    ensures forall a, b :: 0 <= a < b < |OptionalKeys| ==> OptionalKeys[a] != OptionalKeys[b]
  {
  }

  lemma EntriesClean(r: Rule, renderDate: DateTime -> string, renderList: seq<int> -> string, parseDate: DateParser)
    requires WellFormed(r) && PrintsCleanly(r, renderDate, renderList, parseDate)
    ensures CleanEntries(Entries(r, renderDate, renderList))
    ensures DistinctKeys(Entries(r, renderDate, renderList))
  {
    var es := Entries(r, renderDate, renderList);
    OptionalKeysClean();
    forall j | 0 <= j < |es|
      ensures CleanKey(es[j].key) && (es[j].text.Some? ==> CleanText(es[j].text.value))
    {
      EntryClean(r, renderDate, renderList, parseDate, j);
    }
  }

  lemma EntryClean(r: Rule, renderDate: DateTime -> string, renderList: seq<int> -> string, parseDate: DateParser, j: nat)
    requires WellFormed(r) && PrintsCleanly(r, renderDate, renderList, parseDate)
    requires j < |OptionalKeys|
    ensures Entries(r, renderDate, renderList)[j].text.Some? ==> CleanText(Entries(r, renderDate, renderList)[j].text.value)
  {
    var es := Entries(r, renderDate, renderList);
    if j == 1 && r.count.Some? {
      DigitsAreClean(NatToString(r.count.value));
    } else if j == 2 && r.interval.Some? {
      DigitsAreClean(NatToString(r.interval.value));
    } else if j == 6 && r.byList.byDay.Some? {
      WeekdaysTextClean(r.byList.byDay.value);
    } else if j == 12 && r.wkst.Some? {
      assert CleanText(DayName(r.wkst.value));
    }
  }

  /** A rule `to_ical` can print: frequency set, not both UNTIL and COUNT. */
  predicate Printable(r: Rule) {
    WellFormed(r) && !(r.until.Some? && r.count.Some?)
  }

  /** What `to_ical` prints for any rule it does not reject, whatever text
      the setters put into its fields. */
  lemma ToIcalPrints(r: Rule, renderDate: DateTime -> string, renderList: seq<int> -> string)
    requires r.frequency.Some? && !(r.until.Some? && r.count.Some?)
    ensures ToIcal(r, renderDate, renderList)
      == Success("FREQ=" + FrequencyName(r.frequency.value) + Prefixed(Printed(Entries(r, renderDate, renderList))))
  {
    JoinCons("FREQ=" + FrequencyName(r.frequency.value), Printed(Entries(r, renderDate, renderList)));
  }

  lemma SearchAfterHead<T>(head: string, rest: string, m: string -> Option<T>)
    requires SemicolonLed(m) && StartsWith(head, "FREQ=") && Free(head[5..], ';')
    ensures Search(head + rest, m) == Search(rest, m)
  {
    assert Free(head, ';') by {
      forall i | 0 <= i < |head|
        ensures head[i] != ';'
      {
        if i >= 5 {
          assert head[i] == head[5..][i - 5];
        }
      }
    }
    SearchSkipsFree(head, rest, m);
  }

  lemma FrequencyNameFree(f: Frequency)
    ensures Free(FrequencyName(f), ';')
  {
    match f
    case Secondly =>
    case Minutely =>
    case Hourly =>
    case Daily =>
    case Weekly =>
    case Monthly =>
    case Yearly =>
  }

  /** The printed rule is `FREQ=...` and then the printed fields, so a
      `;`-led pattern only sees the printed fields. */
  lemma SearchPrinted<T>(r: Rule, renderDate: DateTime -> string, renderList: seq<int> -> string, m: string -> Option<T>)
    requires Printable(r) && SemicolonLed(m)
    ensures ToIcal(r, renderDate, renderList).Success?
    ensures Search(ToIcal(r, renderDate, renderList).value, m) == Search(Prefixed(Printed(Entries(r, renderDate, renderList))), m)
  {
    var name := FrequencyName(r.frequency.value);
    var head := "FREQ=" + name;
    var rest := Prefixed(Printed(Entries(r, renderDate, renderList)));
    ToIcalPrints(r, renderDate, renderList);
    FrequencyNameFree(r.frequency.value);
    assert head[5..] == name;
    SearchAfterHead(head, rest, m);
  }

  lemma ReparseFrequency(r: Rule, renderDate: DateTime -> string, renderList: seq<int> -> string)
    requires Printable(r)
    ensures ToIcal(r, renderDate, renderList).Success?
    ensures Search(ToIcal(r, renderDate, renderList).value, FreqAt) == r.frequency
  {
    var head := "FREQ=" + FrequencyName(r.frequency.value);
    var ps := Printed(Entries(r, renderDate, renderList));
    JoinCons(head, ps);
    var s := head + Prefixed(ps);
    FreqAtName(r.frequency.value, Prefixed(ps));
    assert s[0..] == s;
    SearchAt(s, FreqAt, 0);
  }

  /** The printed BYDAY list splits back into its tokens and each token
      parses back into its weekday. */
  lemma WeekdaysReparse(ws: seq<Weekday>)
    requires forall i :: 0 <= i < |ws| ==> PositionText(ws[i].position)
    ensures ParseWeekdays(Split(WeekdaysText(ws), ',')) == Success(ws)
  {
    var ts := WeekdayTexts(ws);
    assert WeekdaysText(ws) == Join(ts, ',');
    forall i | 0 <= i < |ts|
      ensures Free(ts[i], ',') && |ts[i]| > 0
    {
      WeekdayTextClean(ws[i]);
    }
    SplitOfJoin(ts, ',');
    forall i | 0 <= i < |ts|
      ensures Search(ts[i], WeekdayAt) == Some(ws[i])
    {
      WeekdayReparses(ws[i]);
    }
    MapMatchesOf(ts, WeekdayAt, ws);
  }

  lemma ReparseByDay(r: Rule, renderDate: DateTime -> string, renderList: seq<int> -> string, parseDate: DateParser)
    requires Printable(r) && PrintsCleanly(r, renderDate, renderList, parseDate)
    ensures ToIcal(r, renderDate, renderList).Success?
    ensures WeekdayList(ToIcal(r, renderDate, renderList).value) == Success(r.byList.byDay)
  {
    ByDayFound(r, renderDate, renderList, parseDate);
    if r.byList.byDay.Some? {
      WeekdaysReparse(r.byList.byDay.value);
    }
  }

  /** The BYDAY field of the printed rule is found again as the printed
      weekday list. */
  lemma ByDayFound(r: Rule, renderDate: DateTime -> string, renderList: seq<int> -> string, parseDate: DateParser)
    requires Printable(r) && PrintsCleanly(r, renderDate, renderList, parseDate)
    ensures ToIcal(r, renderDate, renderList).Success?
    ensures Search(ToIcal(r, renderDate, renderList).value, LazyField("BYDAY")) == MapOption(r.byList.byDay, WeekdaysText)
  {
    ReparseOptionalTexts(r, renderDate, renderList, parseDate, 6);
    EntryByDayText(r, renderDate, renderList);
    ByDayKey();
  }

  lemma ByDayKey()
    ensures OptionalKeys[6] == "BYDAY"
  {
  }

  /** The COUNT and INTERVAL entries of a rule. */
  lemma EntryTexts(r: Rule, renderDate: DateTime -> string, renderList: seq<int> -> string)
    ensures Entries(r, renderDate, renderList)[1].text == MapOption(r.count, NatToString)
    ensures Entries(r, renderDate, renderList)[2].text == MapOption(r.interval, NatToString)
  {
  }

  lemma CountKeys()
    ensures OptionalKeys[1] == "COUNT" && OptionalKeys[2] == "INTERVAL"
  {
  }

  /** The WKST entry of a rule. */
  lemma EntryWkstText(r: Rule, renderDate: DateTime -> string, renderList: seq<int> -> string)
    ensures Entries(r, renderDate, renderList)[12].key == "WKST"
    ensures Entries(r, renderDate, renderList)[12].text == MapOption(r.wkst, DayName)
  {
  }

  /** The BYDAY entry of a rule. */
  lemma EntryByDayText(r: Rule, renderDate: DateTime -> string, renderList: seq<int> -> string)
    ensures Entries(r, renderDate, renderList)[6].text == MapOption(r.byList.byDay, WeekdaysText)
  {
  }

  lemma DigitsOverNat(es: seq<Entry>, i: nat, n: Option<nat>)
    requires CleanEntries(es) && DistinctKeys(es) && i < |es|
    requires es[i].text == MapOption(n, NatToString)
    ensures Search(Prefixed(Printed(es)), DigitsField(es[i].key)) == n
  {
    DigitsOverEntries(es, i);
  }

  lemma ReparseCount(r: Rule, renderDate: DateTime -> string, renderList: seq<int> -> string, parseDate: DateParser)
    requires Printable(r) && PrintsCleanly(r, renderDate, renderList, parseDate)
    ensures ToIcal(r, renderDate, renderList).Success?
    ensures IntVal(ToIcal(r, renderDate, renderList).value, "COUNT") == r.count
    ensures IntVal(ToIcal(r, renderDate, renderList).value, "INTERVAL") == r.interval
  {
    var es := Entries(r, renderDate, renderList);
    var s := ToIcal(r, renderDate, renderList).value;
    EntriesClean(r, renderDate, renderList, parseDate);
    EntryTexts(r, renderDate, renderList);
    CountKeys();
    DigitsFieldLed("COUNT");
    DigitsFieldLed("INTERVAL");
    SearchPrinted(r, renderDate, renderList, DigitsField("COUNT"));
    SearchPrinted(r, renderDate, renderList, DigitsField("INTERVAL"));
    DigitsOverNat(es, 1, r.count);
    DigitsOverNat(es, 2, r.interval);
    assert IntVal(s, "COUNT") == Search(s, DigitsField("COUNT"));
    assert IntVal(s, "INTERVAL") == Search(s, DigitsField("INTERVAL"));
  }

  lemma ReparseWkst(r: Rule, renderDate: DateTime -> string, renderList: seq<int> -> string, parseDate: DateParser)
    requires Printable(r) && PrintsCleanly(r, renderDate, renderList, parseDate)
    ensures ToIcal(r, renderDate, renderList).Success?
    ensures WeekStart(ToIcal(r, renderDate, renderList).value) == r.wkst
  {
    var es := Entries(r, renderDate, renderList);
    EntriesClean(r, renderDate, renderList, parseDate);
    WkstLed();
    EntryWkstText(r, renderDate, renderList);
    SearchPrinted(r, renderDate, renderList, WkstAt);
    WkstOverEntries(es, 12, if r.wkst.Some? then r.wkst.value else MO);
  }

  lemma ReparseOptionalTexts(r: Rule, renderDate: DateTime -> string, renderList: seq<int> -> string, parseDate: DateParser, i: nat)
    requires Printable(r) && PrintsCleanly(r, renderDate, renderList, parseDate) && i < |OptionalKeys|
    ensures ToIcal(r, renderDate, renderList).Success?
    ensures Search(ToIcal(r, renderDate, renderList).value, LazyField(OptionalKeys[i])) == Entries(r, renderDate, renderList)[i].text
  {
    var es := Entries(r, renderDate, renderList);
    EntriesClean(r, renderDate, renderList, parseDate);
    LazyFieldLed(OptionalKeys[i]);
    SearchPrinted(r, renderDate, renderList, LazyField(OptionalKeys[i]));
    LazyOverEntries(es, i);
  }

  /** True when both lists are present or both absent. */
  predicate SamePresence<T, U>(a: Option<T>, b: Option<U>) {
    a.Some? <==> b.Some?
  }

  /** The fields `Parse` reads from a text whose FREQ is found, whose UNTIL
      (if any) is a date and whose BYDAY list (if any) is made of weekdays. */
  lemma ParseFields(value: string, parseDate: DateParser)
    requires Search(value, FreqAt).Some?
    requires UntilText(value).Some? ==> parseDate(UntilText(value).value).Some?
    requires WeekdayList(value).Success?
    ensures Parse(value, parseDate).Success?
    ensures
      var p := Parse(value, parseDate).value;
      && p.frequency == Search(value, FreqAt)
      && SamePresence(p.until, UntilText(value))
      && p.count == IntVal(value, "COUNT")
      && p.interval == IntVal(value, "INTERVAL")
      && p.byList.byDay == WeekdayList(value).value
      && p.wkst == WeekStart(value)
      && p.byList.bySecond == IntList(value, "BYSECOND")
      && p.byList.byMinute == IntList(value, "BYMINUTE")
      && p.byList.byHour == IntList(value, "BYHOUR")
      && p.byList.byMonthDay == IntList(value, "BYMONTHDAY")
      && p.byList.byYearDay == IntList(value, "BYYEARDAY")
      && p.byList.byWeekNo == IntList(value, "BYWEEKNO")
      && p.byList.byMonth == IntList(value, "BYMONTH")
      && p.byList.bySetPos == IntList(value, "BYSETPOS")
  {
  }

  /** An integer list is present exactly when its `;KEY=` field is found. */
  lemma IntListPresence(value: string, key: string)
    ensures IntList(value, key).Some? <==> Search(value, LazyField(key)).Some?
  {
  }

  /** Which optional entries are set. */
  lemma EntryPresence(r: Rule, renderDate: DateTime -> string, renderList: seq<int> -> string)
    ensures SamePresence(Entries(r, renderDate, renderList)[0].text, r.until)
    ensures SamePresence(Entries(r, renderDate, renderList)[3].text, r.byList.bySecond)
    ensures SamePresence(Entries(r, renderDate, renderList)[4].text, r.byList.byMinute)
    ensures SamePresence(Entries(r, renderDate, renderList)[5].text, r.byList.byHour)
    ensures SamePresence(Entries(r, renderDate, renderList)[7].text, r.byList.byMonthDay)
    ensures SamePresence(Entries(r, renderDate, renderList)[8].text, r.byList.byYearDay)
    ensures SamePresence(Entries(r, renderDate, renderList)[9].text, r.byList.byWeekNo)
    ensures SamePresence(Entries(r, renderDate, renderList)[10].text, r.byList.byMonth)
    ensures SamePresence(Entries(r, renderDate, renderList)[11].text, r.byList.bySetPos)
  {
  }

  /** A printed field found again by its key is present exactly when the
      rule's field is. */
  lemma ReparsePresence(r: Rule, renderDate: DateTime -> string, renderList: seq<int> -> string, parseDate: DateParser, i: nat)
    requires Printable(r) && PrintsCleanly(r, renderDate, renderList, parseDate) && i < |OptionalKeys|
    ensures ToIcal(r, renderDate, renderList).Success?
    ensures SamePresence(Search(ToIcal(r, renderDate, renderList).value, LazyField(OptionalKeys[i])), Entries(r, renderDate, renderList)[i].text)
  {
    ReparseOptionalTexts(r, renderDate, renderList, parseDate, i);
  }

  /** The UNTIL text found in the printed rule is the printed date, which the
      date parser accepts. */
  lemma ReparseUntil(r: Rule, renderDate: DateTime -> string, renderList: seq<int> -> string, parseDate: DateParser)
    requires Printable(r) && PrintsCleanly(r, renderDate, renderList, parseDate)
    ensures ToIcal(r, renderDate, renderList).Success?
    ensures UntilText(ToIcal(r, renderDate, renderList).value) == MapOption(r.until, renderDate)
    ensures UntilText(ToIcal(r, renderDate, renderList).value).Some? ==> parseDate(UntilText(ToIcal(r, renderDate, renderList).value).value).Some?
  {
    ReparseOptionalTexts(r, renderDate, renderList, parseDate, 0);
  }

  /** Reading back what `to_ical` printed gives a rule with the same
      frequency, COUNT, INTERVAL, BYDAY list and WKST, and with UNTIL and
      every other BY-list present exactly when it was (their printed forms
      come from printers outside rrule.rb, so their values are not compared). */
  lemma ReparsePrinted(r: Rule, renderDate: DateTime -> string, renderList: seq<int> -> string, parseDate: DateParser)
    requires Printable(r) && PrintsCleanly(r, renderDate, renderList, parseDate)
    ensures ToIcal(r, renderDate, renderList).Success?
    ensures
      var p := Parse(ToIcal(r, renderDate, renderList).value, parseDate);
      && p.Success?
      && p.value.frequency == r.frequency
      && p.value.count == r.count
      && p.value.interval == r.interval
      && p.value.byList.byDay == r.byList.byDay
      && p.value.wkst == r.wkst
      && SamePresence(p.value.until, r.until)
      && SamePresence(p.value.byList.bySecond, r.byList.bySecond)
      && SamePresence(p.value.byList.byMinute, r.byList.byMinute)
      && SamePresence(p.value.byList.byHour, r.byList.byHour)
      && SamePresence(p.value.byList.byMonthDay, r.byList.byMonthDay)
      && SamePresence(p.value.byList.byYearDay, r.byList.byYearDay)
      && SamePresence(p.value.byList.byWeekNo, r.byList.byWeekNo)
      && SamePresence(p.value.byList.byMonth, r.byList.byMonth)
      && SamePresence(p.value.byList.bySetPos, r.byList.bySetPos)
  {
    var s := ToIcal(r, renderDate, renderList).value;
    ReparseFrequency(r, renderDate, renderList);
    ReparseByDay(r, renderDate, renderList, parseDate);
    ReparseCount(r, renderDate, renderList, parseDate);
    ReparseWkst(r, renderDate, renderList, parseDate);
    ReparseUntil(r, renderDate, renderList, parseDate);
    ReparseLists(r, renderDate, renderList, parseDate);
    ParseFields(s, parseDate);
  }

  lemma ReparseList<T>(r: Rule, renderDate: DateTime -> string, renderList: seq<int> -> string, parseDate: DateParser, i: nat, field: Option<T>)
    requires Printable(r) && PrintsCleanly(r, renderDate, renderList, parseDate) && i < |OptionalKeys|
    requires SamePresence(Entries(r, renderDate, renderList)[i].text, field)
    ensures ToIcal(r, renderDate, renderList).Success?
    ensures SamePresence(IntList(ToIcal(r, renderDate, renderList).value, OptionalKeys[i]), field)
  {
    ReparsePresence(r, renderDate, renderList, parseDate, i);
    IntListPresence(ToIcal(r, renderDate, renderList).value, OptionalKeys[i]);
  }

  lemma ReparseLists(r: Rule, renderDate: DateTime -> string, renderList: seq<int> -> string, parseDate: DateParser)
    requires Printable(r) && PrintsCleanly(r, renderDate, renderList, parseDate)
    ensures ToIcal(r, renderDate, renderList).Success?
    ensures
      var s := ToIcal(r, renderDate, renderList).value;
      && SamePresence(IntList(s, "BYSECOND"), r.byList.bySecond)
      && SamePresence(IntList(s, "BYMINUTE"), r.byList.byMinute)
      && SamePresence(IntList(s, "BYHOUR"), r.byList.byHour)
      && SamePresence(IntList(s, "BYMONTHDAY"), r.byList.byMonthDay)
      && SamePresence(IntList(s, "BYYEARDAY"), r.byList.byYearDay)
      && SamePresence(IntList(s, "BYWEEKNO"), r.byList.byWeekNo)
      && SamePresence(IntList(s, "BYMONTH"), r.byList.byMonth)
      && SamePresence(IntList(s, "BYSETPOS"), r.byList.bySetPos)
  {
    EntryPresence(r, renderDate, renderList);
    ReparseList(r, renderDate, renderList, parseDate, 3, r.byList.bySecond);
    ReparseList(r, renderDate, renderList, parseDate, 4, r.byList.byMinute);
    ReparseList(r, renderDate, renderList, parseDate, 5, r.byList.byHour);
    ReparseList(r, renderDate, renderList, parseDate, 7, r.byList.byMonthDay);
    ReparseList(r, renderDate, renderList, parseDate, 8, r.byList.byYearDay);
    ReparseList(r, renderDate, renderList, parseDate, 9, r.byList.byWeekNo);
    ReparseList(r, renderDate, renderList, parseDate, 10, r.byList.byMonth);
    ReparseList(r, renderDate, renderList, parseDate, 11, r.byList.bySetPos);
  }

  /** Parsing, printing and parsing again keeps the frequency, COUNT,
      INTERVAL, BYDAY list and WKST of the first parse. */
  lemma ParsePrintParse(value: string, renderDate: DateTime -> string, renderList: seq<int> -> string, parseDate: DateParser)
    requires Parse(value, parseDate).Success?
    requires !(Parse(value, parseDate).value.until.Some? && Parse(value, parseDate).value.count.Some?)
    requires PrintsCleanly(Parse(value, parseDate).value, renderDate, renderList, parseDate)
    ensures
      var r := Parse(value, parseDate).value;
      var printed := ToIcal(r, renderDate, renderList);
      && printed.Success?
      && var p := Parse(printed.value, parseDate);
      && p.Success?
      && p.value.frequency == r.frequency
      && p.value.count == r.count
      && p.value.interval == r.interval
      && p.value.byList.byDay == r.byList.byDay
      && p.value.wkst == r.wkst
  {
    ReparsePrinted(Parse(value, parseDate).value, renderDate, renderList, parseDate);
  }

  // ---------------------------------------------------------------------------
  // Integer lists written as decimal texts

  /** The decimal texts of `xs`, as `Integer#to_s` writes them. */
  function IntTexts(xs: seq<int>): seq<string> {
    seq(|xs|, i requires 0 <= i < |xs| => IntToString(xs[i]))
  }

  lemma IntTextClean(x: int)
    ensures CleanText(IntToString(x)) && Free(IntToString(x), ',') && |IntToString(x)| > 0
  {
    var s := IntToString(x);
    if x < 0 {
      assert s[1..] == NatToString(-x);
    }
    assert PositionText(s);
    PositionTextClean(s);
  }

  /** A `;KEY=` at the very start of a clean text captures all of the rest. */
  lemma LazyFieldAtStart(key: string, v: string)
    requires CleanText(v)
    ensures Search(";" + key + "=" + v, LazyField(key)) == Some(v)
  {
    var lit := ";" + key + "=";
    var t := lit + v;
    assert t[|lit|..] == v + "";
    TakeLineUnique(v, "");
    assert LazyField(key)(t[0..]) == Some(v);
    SearchAt(t, LazyField(key), 0);
  }

  /** The decimal texts of a list, joined with commas, are a clean text that
      splits back into those texts. */
  lemma IntTextsSplit(xs: seq<int>)
    ensures CleanText(Join(IntTexts(xs), ','))
    ensures Split(Join(IntTexts(xs), ','), ',') == IntTexts(xs)
  {
    var parts := IntTexts(xs);
    forall i | 0 <= i < |parts|
      ensures CleanText(parts[i]) && Free(parts[i], ',') && |parts[i]| > 0
    {
      IntTextClean(xs[i]);
    }
    JoinFree(parts, ',', ';');
    JoinFree(parts, ',', '\n');
    SplitOfJoin(parts, ',');
  }

  /** `parse_int_list` reads back a list of integers written in decimal and
      joined with commas: `to_i` undoes `Integer#to_s` and `split(",")`
      undoes `join(",")`. */
  lemma IntListOfJoin(key: string, xs: seq<int>)
    ensures IntList(";" + key + "=" + Join(IntTexts(xs), ','), key) == Some(xs)
  {
    var parts := IntTexts(xs);
    var t := ";" + key + "=" + Join(parts, ',');
    IntTextsSplit(xs);
    LazyFieldAtStart(key, Join(parts, ','));
    assert ListFields(t, key) == parts;
    var r := IntList(t, key);
    assert r.Some?;
    assert |r.value| == |xs|;
    forall i | 0 <= i < |xs|
      ensures r.value[i] == xs[i]
    {
      ToIOfIntToString(xs[i]);
    }
    assert r.value == xs;
  }
}

=== FILE: rrule.dfy ===
/** The recurrence-rule value of RFC 5545 (section 3.3.10) as the `RRule`
    class of lib/icalendar/rrule.rb holds it: parsing from the property text
    and printing back with `to_ical`. */
module RRule {
  import opened Outcomes
  import opened Strings
  import opened Patterns
  import opened Calendar

  datatype Frequency = Secondly | Minutely | Hourly | Daily | Weekly | Monthly | Yearly

  function FrequencyName(f: Frequency): string {
    match f
    case Secondly => "SECONDLY"
    case Minutely => "MINUTELY"
    case Hourly => "HOURLY"
    case Daily => "DAILY"
    case Weekly => "WEEKLY"
    case Monthly => "MONTHLY"
    case Yearly => "YEARLY"
  }

  /** The two-letter day codes of RFC 5545. */
  datatype Day = SU | MO | TU | WE | TH | FR | SA

  function DayName(d: Day): (s: string)
    ensures |s| == 2
  {
    match d
    case SU => "SU"
    case MO => "MO"
    case TU => "TU"
    case WE => "WE"
    case TH => "TH"
    case FR => "FR"
    case SA => "SA"
  }

  /** `(SU|MO|TU|WE|TH|FR|SA)` at the start of `t`. */
  function DayAt(t: string): (r: Option<Day>)
    ensures r.Some? ==> StartsWith(t, DayName(r.value))
    ensures forall d :: StartsWith(t, DayName(d)) ==> r == Some(d)
  {
    if StartsWith(t, "SU") then Some(SU)
    else if StartsWith(t, "MO") then Some(MO)
    else if StartsWith(t, "TU") then Some(TU)
    else if StartsWith(t, "WE") then Some(WE)
    else if StartsWith(t, "TH") then Some(TH)
    else if StartsWith(t, "FR") then Some(FR)
    else if StartsWith(t, "SA") then Some(SA)
    else None
  }

  /** `Weekday`: a day code with the ordinal text written before it, kept as
      the text `[+-]?\d*` matched (possibly empty, possibly a bare sign). */
  datatype Weekday = Weekday(day: Day, position: string)

  /** The texts `[+-]?\d*` matches. */
  predicate PositionText(p: string) {
    if |p| > 0 && (p[0] == '+' || p[0] == '-') then AllDigits(p[1..]) else AllDigits(p)
  }

  /** `Weekday#to_s`: the position text followed by the day code. */
  function WeekdayText(w: Weekday): (s: string)
    ensures |s| == |w.position| + 2 && s[..|w.position|] == w.position
  {
    w.position + DayName(w.day)
  }

  /** The nine BY-lists in the order the constructor inserts them into
      `@by_list`; `None` for a list that is absent. */
  datatype ByLists = ByLists(
    bySecond: Option<seq<int>>,
    byMinute: Option<seq<int>>,
    byHour: Option<seq<int>>,
    byDay: Option<seq<Weekday>>,
    byMonthDay: Option<seq<int>>,
    byYearDay: Option<seq<int>>,
    byWeekNo: Option<seq<int>>,
    byMonth: Option<seq<int>>,
    bySetPos: Option<seq<int>>)

  /** An `RRule`: the original text and the parsed fields. The fields have
      setters in Ruby, so a rule need not come from the parser; in particular
      its frequency may be unset. */
  datatype Rule = Rule(
    origValue: string,
    frequency: Option<Frequency>,
    until: Option<DateTime>,
    count: Option<nat>,
    interval: Option<nat>,
    byList: ByLists,
    wkst: Option<Day>)

  datatype ParseError =
    | MissingFrequency        // `frequency_match[1]` on a nil match
    | BadUntil(text: string)  // `DateTime.parse` raised
    | BadWeekday(token: string)  // `wd_match[2]` on a nil match

  datatype SerializeError = FrequencyUnset | UntilAndCount

  /** The result of `DateTime.parse`, which lies outside this file: `None`
      when it raises. */
  type DateParser = string -> Option<DateTime>

  // ---------------------------------------------------------------------------
  // Parsing

  /** `FREQ=` and the name of `f`. */
  function FreqText(f: Frequency): string {
    "FREQ=" + FrequencyName(f)
  }

  /** The alternatives of the FREQ pattern, in the order it tries them. */
  const Frequencies := [Secondly, Minutely, Hourly, Daily, Weekly, Monthly, Yearly]

  /** The first of `fs` whose `FREQ=` text starts `t`. */
  function FirstFreqAt(t: string, fs: seq<Frequency>): (r: Option<Frequency>)
    ensures r.Some? ==> r.value in fs && StartsWith(t, FreqText(r.value))
    ensures r.None? ==> forall f :: f in fs ==> !StartsWith(t, FreqText(f))
  {
    if |fs| == 0 then None
    else if StartsWith(t, FreqText(fs[0])) then Some(fs[0])
    else FirstFreqAt(t, fs[1..])
  }

  /** `FREQ=(SECONDLY|MINUTELY|HOURLY|DAILY|WEEKLY|MONTHLY|YEARLY)` at the start
      of `t`. */
  function FreqAt(t: string): (r: Option<Frequency>)
    ensures r.Some? ==> StartsWith(t, FreqText(r.value))
  {
    FirstFreqAt(t, Frequencies)
  }

  /** Every `FREQ=` name is recognised, and no name is a prefix of another,
      so the one found is the one present. */
  lemma FreqAtComplete(t: string, f: Frequency)
    requires StartsWith(t, FreqText(f))
    ensures FreqAt(t) == Some(f)
  {
    assert f in Frequencies;
    var g := FreqAt(t).value;
    FreqByInitials(f);
    FreqByInitials(g);
    assert t[5] == FreqText(f)[5] == FreqText(g)[5];
    assert t[6] == FreqText(f)[6] == FreqText(g)[6];
  }

  /** The first two letters of its name tell each frequency apart. */
  function FreqOfInitials(a: char, b: char): Option<Frequency> {
    if a == 'S' then Some(Secondly)
    else if a == 'M' && b == 'I' then Some(Minutely)
    else if a == 'H' then Some(Hourly)
    else if a == 'D' then Some(Daily)
    else if a == 'W' then Some(Weekly)
    else if a == 'M' && b == 'O' then Some(Monthly)
    else if a == 'Y' then Some(Yearly)
    else None
  }

  lemma FreqByInitials(f: Frequency)
    ensures |FreqText(f)| >= 7
    ensures FreqOfInitials(FreqText(f)[5], FreqText(f)[6]) == Some(f)
  {
  }

  /** `t` starts with `;WKST=`, the code of `d` and a field end. */
  predicate WkstMatch(t: string, d: Day) {
    StartsWith(t, ";WKST=" + DayName(d)) && AtFieldEnd(t[8..])
  }

  /** `;WKST=(SU|MO|TU|WE|TH|FR|SA)(;|$)` at the start of `t`. */
  function WkstAt(t: string): (r: Option<Day>)
    ensures r.Some? ==> WkstMatch(t, r.value)
  {
    if StartsWith(t, ";WKST=") then
      var d := DayAt(t[6..]);
      if d.Some? && AtFieldEnd(t[8..]) then
        assert t[..8] == t[..6] + t[6..][..2];
        d
      else None
    else None
  }

  /** Every `;WKST=` with a day code and a field end is accepted as that day. */
  lemma WkstAtComplete(t: string, d: Day)
    requires WkstMatch(t, d)
    ensures WkstAt(t) == Some(d)
  {
    var lit := ";WKST=" + DayName(d);
    assert t[..6] == lit[..6] == ";WKST=";
    assert t[6..][..2] == lit[6..] == DayName(d);
  }

  /** `[+-]?` taken greedily: the length of the sign `t` starts with. */
  function SignLength(t: string): (n: nat)
    ensures n <= |t|
  {
    if |t| > 0 && (t[0] == '+' || t[0] == '-') then 1 else 0
  }

  /** `([+-]?\d*)(SU|MO|TU|WE|TH|FR|SA)` at the start of `t`. The sign and the
      digits are taken greedily; giving any of them back cannot help, because
      a day code starts with a letter. */
  function WeekdayAt(t: string): (r: Option<Weekday>)
    ensures r.Some? ==> PositionText(r.value.position) && StartsWith(t, WeekdayText(r.value))
  {
    var sign := SignLength(t);
    var k := sign + |DigitRun(t[sign..])|;
    assert t[sign..][..k - sign] == DigitRun(t[sign..]);
    var d := DayAt(t[k..]);
    if d.Some? then
      var w := Weekday(d.value, t[..k]);
      assert t[..k][sign..] == DigitRun(t[sign..]);
      assert t[..|WeekdayText(w)|] == t[..k] + t[k..][..2];
      Some(w)
    else None
  }

  /** A text that starts with a weekday's text takes the sign of its
      position, and the digits after that sign run up to the day code. */
  lemma PositionDigits(t: string, w: Weekday)
    requires PositionText(w.position) && StartsWith(t, WeekdayText(w))
    ensures SignLength(t) <= |w.position|
    ensures DigitRun(t[SignLength(t)..]) == w.position[SignLength(t)..]
  {
    var p, name := w.position, DayName(w.day);
    var sign := SignLength(t);
    var rest := t[|p|..];
    assert t[..|p| + 2] == p + name;
    assert rest[..2] == name;
    assert sign <= |p|;
    assert t[sign..] == p[sign..] + rest;
    assert AllDigits(p[sign..]);
    DigitRunClean(p[sign..], rest);
  }

  /** Every `[+-]?\d*` position followed by a day code is accepted as that
      weekday: the greedy digit run stops at the day code's first letter. */
  lemma WeekdayAtComplete(t: string, w: Weekday)
    requires PositionText(w.position) && StartsWith(t, WeekdayText(w))
    ensures WeekdayAt(t) == Some(w)
  {
    var p := w.position;
    PositionDigits(t, w);
    assert SignLength(t) + |DigitRun(t[SignLength(t)..])| == |p|;
    assert t[..|p| + 2] == p + DayName(w.day);
    assert t[|p|..][..2] == DayName(w.day);
    assert DayAt(t[|p|..]) == Some(w.day);
    assert t[..|p|] == p;
  }

  /** `parse_date_val`: the text after the first `;UNTIL=`, read by
      `DateTime.parse`. It is there exactly when `;UNTIL=` occurs, and it runs
      up to the next `;` or line end. */
  function UntilText(value: string): (r: Option<string>)
    ensures r.Some? <==> HasField(value, "UNTIL")
    ensures r.Some? ==> Free(r.value, ';') && Free(r.value, '\n')
    ensures r.Some? ==> exists p: nat :: FirstField(value, "UNTIL", p) && LazyMatch(value[p..], "UNTIL", r.value)
  {
    SearchLazyField(value, "UNTIL");
    Search(value, LazyField("UNTIL"))
  }

  /** `parse_int_val`: a value only where `;KEY=` is followed by digits and a
      field end, and then the number those digits denote. */
  function IntVal(value: string, key: string): (r: Option<nat>)
    ensures r.Some? <==> exists p, d :: 0 <= p <= |value| && DigitsMatch(value[p..], key, d)
    ensures r.Some? ==> exists p, d :: 0 <= p <= |value| && DigitsMatch(value[p..], key, d) && r.value == DigitsValue(d)
  {
    SearchDigitsField(value, key);
    Search(value, DigitsField(key))
  }

  /** The comma-separated elements of the text after the first `;KEY=`. */
  function ListFields(value: string, key: string): seq<string> {
    match Search(value, LazyField(key))
    case None => []
    case Some(text) => Split(text, ',')
  }

  /** `parse_int_list`: every comma-separated element of the text after the
      first `;KEY=`, converted leniently with `to_i`. */
  function IntList(value: string, key: string): (r: Option<seq<int>>)
    ensures r.Some? <==> HasField(value, key)
    ensures r.Some? ==> |r.value| == |ListFields(value, key)|
    ensures r.Some? ==> forall i :: 0 <= i < |r.value| ==> r.value[i] == ToI(ListFields(value, key)[i])
  {
    SearchLazyField(value, key);
    match Search(value, LazyField(key))
    case None => None
    case Some(text) =>
      var parts := Split(text, ',');
      Some(seq(|parts|, i requires 0 <= i < |parts| => ToI(parts[i])))
  }

  /** The `map` in `parse_weekday_list`, for any token pattern `at`: each
      token becomes the value of its leftmost match; the first token without
      a match raises. */
  function MapMatches<T>(tokens: seq<string>, at: string -> Option<T>): (r: Result<seq<T>, ParseError>)
    ensures r.Success? ==> |r.value| == |tokens|
    ensures r.Failure? ==> r.error.BadWeekday? && r.error.token in tokens && NoMatch(r.error.token, at)
  {
    if |tokens| == 0 then Success([])
    else
      match Search(tokens[0], at)
      case None => Failure(BadWeekday(tokens[0]))
      case Some(w) =>
        match MapMatches(tokens[1..], at)
        case Failure(e) => Failure(e)
        case Success(ws) => Success([w] + ws)
  }

  /** The map fails exactly when some token holds no match. */
  lemma {:induction false} MapMatchesFails<T>(tokens: seq<string>, at: string -> Option<T>)
    ensures MapMatches(tokens, at).Failure? <==> exists i :: 0 <= i < |tokens| && NoMatch(tokens[i], at)
    decreases |tokens|
  {
    if |tokens| > 0 {
      MapMatchesFails(tokens[1..], at);
      if Search(tokens[0], at).Some? {
        forall i | 0 < i < |tokens|
          ensures tokens[1..][i - 1] == tokens[i]
        {
        }
      } else {
        assert NoMatch(tokens[0], at);
      }
    }
  }

  /** The token a failing map names is the first that holds no match. */
  lemma {:induction false} MapMatchesFirstFailure<T>(tokens: seq<string>, at: string -> Option<T>) returns (i: nat)
    requires MapMatches(tokens, at).Failure?
    ensures i < |tokens| && tokens[i] == MapMatches(tokens, at).error.token && NoMatch(tokens[i], at)
    ensures forall j :: 0 <= j < i ==> Search(tokens[j], at).Some?
    decreases |tokens|
  {
    if Search(tokens[0], at).None? {
      i := 0;
    } else {
      var k := MapMatchesFirstFailure(tokens[1..], at);
      i := k + 1;
      forall j | 0 < j < i
        ensures tokens[j] == tokens[1..][j - 1]
      {
      }
    }
  }

  /** Value `i` of a mapped list is the leftmost match in token `i`. */
  lemma {:induction false} MapMatchesEach<T>(tokens: seq<string>, at: string -> Option<T>, i: nat)
    requires MapMatches(tokens, at).Success? && i < |tokens|
    ensures Search(tokens[i], at) == Some(MapMatches(tokens, at).value[i])
    decreases i
  {
    if i > 0 {
      MapMatchesEach(tokens[1..], at, i - 1);
      assert tokens[1..][i - 1] == tokens[i];
    }
  }

  /** Tokens that each hold a match map onto exactly those matches. */
  lemma {:induction false} MapMatchesOf<T>(tokens: seq<string>, at: string -> Option<T>, ws: seq<T>)
    requires |ws| == |tokens|
    requires forall i :: 0 <= i < |tokens| ==> Search(tokens[i], at) == Some(ws[i])
    ensures MapMatches(tokens, at) == Success(ws)
    decreases |tokens|
  {
    if |tokens| > 0 {
      assert Search(tokens[0], at) == Some(ws[0]);
      forall i | 0 <= i < |tokens| - 1
        ensures Search(tokens[1..][i], at) == Some(ws[1..][i])
      {
        assert tokens[1..][i] == tokens[i + 1];
      }
      MapMatchesOf(tokens[1..], at, ws[1..]);
      assert [ws[0]] + ws[1..] == ws;
    }
  }

  /** The weekdays of the BYDAY tokens. */
  function ParseWeekdays(tokens: seq<string>): (r: Result<seq<Weekday>, ParseError>)
    ensures r.Success? ==> forall i :: 0 <= i < |r.value| ==> PositionText(r.value[i].position)
    ensures r.Failure? <==> exists i :: 0 <= i < |tokens| && NoMatch(tokens[i], WeekdayAt)
    ensures r.Failure? ==> r.error.BadWeekday? && r.error.token in tokens && NoMatch(r.error.token, WeekdayAt)
  {
    MapMatchesFails(tokens, WeekdayAt);
    var r := MapMatches(tokens, WeekdayAt);
    if r.Success? then
      assert forall i :: 0 <= i < |r.value| ==> PositionText(r.value[i].position) by {
        forall i | 0 <= i < |r.value|
          ensures PositionText(r.value[i].position)
        {
          WeekdayMatched(tokens, i);
        }
      }
      r
    else r
  }

  /** Weekday `i` of a parsed BYDAY list is the match in token `i`, so its
      position text is a `[+-]?\d*`. */
  lemma WeekdayMatched(tokens: seq<string>, i: nat)
    requires MapMatches(tokens, WeekdayAt).Success? && i < |tokens|
    ensures PositionText(MapMatches(tokens, WeekdayAt).value[i].position)
  {
    MapMatchesEach(tokens, WeekdayAt, i);
    var w := MapMatches(tokens, WeekdayAt).value[i];
    var p: nat :| FirstMatchAt(tokens[i], WeekdayAt, p) && Some(w) == WeekdayAt(tokens[i][p..]);
  }

  /** `parse_weekday_list("BYDAY", value)`. It fails exactly when a BYDAY
      token holds no weekday, and then names such a token. */
  function WeekdayList(value: string): (r: Result<Option<seq<Weekday>>, ParseError>)
    ensures r.Success? && r.value.Some? ==> forall i :: 0 <= i < |r.value.value| ==> PositionText(r.value.value[i].position)
    ensures r.Failure? <==> exists i :: 0 <= i < |ListFields(value, "BYDAY")| && NoMatch(ListFields(value, "BYDAY")[i], WeekdayAt)
    ensures r.Failure? ==> r.error.BadWeekday? && r.error.token in ListFields(value, "BYDAY") && NoMatch(r.error.token, WeekdayAt)
  {
    if Search(value, LazyField("BYDAY")).None? then Success(None)
    else
      match ParseWeekdays(ListFields(value, "BYDAY"))
      case Failure(e) => Failure(e)
      case Success(ws) => Success(Some(ws))
  }

  /** `parse_wkstart`: a day only where `;WKST=` is followed by a day code
      and a field end, and such a text is always found. */
  function WeekStart(value: string): (r: Option<Day>)
    ensures r.Some? ==> exists p :: 0 <= p <= |value| && WkstMatch(value[p..], r.value)
    ensures (exists p, d :: 0 <= p <= |value| && WkstMatch(value[p..], d)) ==> r.Some?
  {
    SearchWkst(value);
    Search(value, WkstAt)
  }

  lemma SearchWkst(value: string)
    ensures Search(value, WkstAt).Some? ==> exists p :: 0 <= p <= |value| && WkstMatch(value[p..], Search(value, WkstAt).value)
    ensures (exists p, d :: 0 <= p <= |value| && WkstMatch(value[p..], d)) ==> Search(value, WkstAt).Some?
  {
    if exists p, d :: 0 <= p <= |value| && WkstMatch(value[p..], d) {
      var p, d :| 0 <= p <= |value| && WkstMatch(value[p..], d);
      WkstAtComplete(value[p..], d);
    }
    if Search(value, WkstAt).Some? {
      var p: nat :| FirstMatchAt(value, WkstAt, p) && Search(value, WkstAt) == WkstAt(value[p..]);
    }
  }

  /** A rule the parser can produce: frequency set and every BYDAY position a
      `[+-]?\d*` text. */
  predicate WellFormed(r: Rule) {
    && r.frequency.Some?
    && (r.byList.byDay.Some? ==>
          forall i :: 0 <= i < |r.byList.byDay.value| ==> PositionText(r.byList.byDay.value[i].position))
  }

  /** `RRule.new(name, params, value)`. Fails exactly where the constructor
      raises: no `FREQ=` name anywhere, an UNTIL text `DateTime.parse`
      rejects, or a BYDAY token without a day code. */
  function Parse(value: string, parseDate: DateParser): (r: Result<Rule, ParseError>)
    ensures r.Success? ==> r.value.origValue == value && WellFormed(r.value)
    ensures NoMatch(value, FreqAt) <==> r == Failure(MissingFrequency)
  {
    match Search(value, FreqAt)
    case None => Failure(MissingFrequency)
    case Some(f) =>
      var untilText := UntilText(value);
      if untilText.Some? && parseDate(untilText.value).None? then Failure(BadUntil(untilText.value))
      else
        match WeekdayList(value)
        case Failure(e) => Failure(e)
        case Success(byDay) =>
          var until := if untilText.Some? then parseDate(untilText.value) else None;
          Success(Rule(
            value,
            Some(f),
            until,
            IntVal(value, "COUNT"),
            IntVal(value, "INTERVAL"),
            ByLists(
              IntList(value, "BYSECOND"),
              IntList(value, "BYMINUTE"),
              IntList(value, "BYHOUR"),
              byDay,
              IntList(value, "BYMONTHDAY"),
              IntList(value, "BYYEARDAY"),
              IntList(value, "BYWEEKNO"),
              IntList(value, "BYMONTH"),
              IntList(value, "BYSETPOS")),
            WeekStart(value)))
  }

  /** A parsed rule has an UNTIL exactly when the text has an UNTIL field, and
      a BYDAY list exactly when it has a BYDAY field. */
  lemma ParsePresence(value: string, parseDate: DateParser)
    requires Parse(value, parseDate).Success?
    ensures Parse(value, parseDate).value.until.Some? <==> UntilText(value).Some?
    ensures Parse(value, parseDate).value.byList.byDay.Some? <==> Search(value, LazyField("BYDAY")).Some?
  {
  }

  /** The UNTIL text, if any, is one `DateTime.parse` accepts. */
  predicate UntilAccepted(value: string, parseDate: DateParser) {
    UntilText(value).Some? ==> parseDate(UntilText(value).value).Some?
  }

  /** The constructor returns exactly when FREQ is found, the UNTIL text (if
      any) parses and every BYDAY token holds a weekday; the frequency it
      keeps is the one FREQ names. */
  lemma ParseSucceeds(value: string, parseDate: DateParser)
    ensures Parse(value, parseDate).Success? <==>
      Search(value, FreqAt).Some? && UntilAccepted(value, parseDate) && WeekdayList(value).Success?
    ensures Parse(value, parseDate).Success? ==> Parse(value, parseDate).value.frequency == Search(value, FreqAt)
  {
  }

  /** `parse_date_val` raises when `DateTime.parse` rejects the UNTIL text:
      the constructor fails that way exactly when FREQ is found and the UNTIL
      text is rejected, and the error names that text. */
  lemma ParseBadUntil(value: string, parseDate: DateParser)
    ensures Parse(value, parseDate).Failure? && Parse(value, parseDate).error.BadUntil? <==>
      Search(value, FreqAt).Some? && !UntilAccepted(value, parseDate)
    ensures Parse(value, parseDate).Failure? && Parse(value, parseDate).error.BadUntil? ==>
      UntilText(value) == Some(Parse(value, parseDate).error.text)
  {
  }

  /** `parse_weekday` raises for a BYDAY token holding no weekday: the
      constructor fails that way exactly when FREQ is found, UNTIL is accepted
      and some BYDAY token holds no weekday, and the error is the first such
      token's. */
  lemma ParseBadWeekday(value: string, parseDate: DateParser)
    ensures Parse(value, parseDate).Failure? && Parse(value, parseDate).error.BadWeekday? <==>
      && Search(value, FreqAt).Some?
      && UntilAccepted(value, parseDate)
      && exists i :: 0 <= i < |ListFields(value, "BYDAY")| && NoMatch(ListFields(value, "BYDAY")[i], WeekdayAt)
    ensures Parse(value, parseDate).Failure? && Parse(value, parseDate).error.BadWeekday? ==>
      Parse(value, parseDate).error == WeekdayList(value).error
  {
    var r, w := Parse(value, parseDate), WeekdayList(value);
    if Search(value, FreqAt).Some? && UntilAccepted(value, parseDate) {
      assert r.Failure? && r.error.BadWeekday? <==> w.Failure?;
    } else {
      assert !(r.Failure? && r.error.BadWeekday?);
    }
  }

  /** `orig_value`: the text the rule was parsed from. */
  function OrigValue(r: Rule): string {
    r.origValue
  }

  /** A parsed rule gives back the text it was parsed from. */
  lemma ParsedOrigValue(value: string, parseDate: DateParser)
    ensures Parse(value, parseDate).Success? ==> OrigValue(Parse(value, parseDate).value) == value
  {
  }

  // ---------------------------------------------------------------------------
  // Printing

  /** An optional field of `to_ical`: its key and, when the field is set, its
      printed value. */
  datatype Entry = Entry(key: string, text: Option<string>)

  /** The keys of the optional fields in the order `to_ical` emits them. */
  const OptionalKeys: seq<string> := [
    "UNTIL", "COUNT", "INTERVAL",
    "BYSECOND", "BYMINUTE", "BYHOUR", "BYDAY", "BYMONTHDAY",
    "BYYEARDAY", "BYWEEKNO", "BYMONTH", "BYSETPOS",
    "WKST"]

  function MapOption<T, U>(o: Option<T>, f: T -> U): Option<U> {
    match o
    case None => None
    case Some(v) => Some(f(v))
  }

  /** The texts of BYDAY entries joined with commas (`value.join ','`). */
  function WeekdaysText(ws: seq<Weekday>): string {
    Join(seq(|ws|, i requires 0 <= i < |ws| => WeekdayText(ws[i])), ',')
  }

  /** The optional fields of `r` with their printed values. UNTIL is printed
      by `DateTime#to_ical` and the integer BY-lists by `Array#to_s`; both lie
      outside this file and are parameters here. */
  function Entries(r: Rule, renderDate: DateTime -> string, renderList: seq<int> -> string): (es: seq<Entry>)
    ensures |es| == |OptionalKeys|
    ensures forall i :: 0 <= i < |es| ==> es[i].key == OptionalKeys[i]
  {
    [ Entry("UNTIL", MapOption(r.until, renderDate)),
      Entry("COUNT", MapOption(r.count, NatToString)),
      Entry("INTERVAL", MapOption(r.interval, NatToString)),
      Entry("BYSECOND", MapOption(r.byList.bySecond, renderList)),
      Entry("BYMINUTE", MapOption(r.byList.byMinute, renderList)),
      Entry("BYHOUR", MapOption(r.byList.byHour, renderList)),
      Entry("BYDAY", MapOption(r.byList.byDay, WeekdaysText)),
      Entry("BYMONTHDAY", MapOption(r.byList.byMonthDay, renderList)),
      Entry("BYYEARDAY", MapOption(r.byList.byYearDay, renderList)),
      Entry("BYWEEKNO", MapOption(r.byList.byWeekNo, renderList)),
      Entry("BYMONTH", MapOption(r.byList.byMonth, renderList)),
      Entry("BYSETPOS", MapOption(r.byList.bySetPos, renderList)),
      Entry("WKST", MapOption(r.wkst, DayName)) ]
  }

  /** `KEY=value` for every entry that is set, in order. */
  function Printed(es: seq<Entry>): (ps: seq<string>)
    ensures |ps| <= |es|
  {
    if |es| == 0 then []
    else
      match es[0].text
      case None => Printed(es[1..])
      case Some(v) => [es[0].key + "=" + v] + Printed(es[1..])
  }

  /** `to_ical`. Raises when the frequency is unset, then when UNTIL and COUNT
      are both set; otherwise `FREQ=` comes first, then the fields that are
      set, joined with `;`. */
  function ToIcal(r: Rule, renderDate: DateTime -> string, renderList: seq<int> -> string): (res: Result<string, SerializeError>)
    ensures r.frequency.None? <==> res == Failure(FrequencyUnset)
    ensures (r.frequency.Some? && r.until.Some? && r.count.Some?) <==> res == Failure(UntilAndCount)
    ensures res.Success? ==> StartsWith(res.value, "FREQ=" + FrequencyName(r.frequency.value))
  {
    if r.frequency.None? then Failure(FrequencyUnset)
    else if r.until.Some? && r.count.Some? then Failure(UntilAndCount)
    else
      var head := "FREQ=" + FrequencyName(r.frequency.value);
      var parts := [head] + Printed(Entries(r, renderDate, renderList));
      JoinHead(parts, ';');
      Success(Join(parts, ';'))
  }
}

=== FILE: strings.dfy ===
/** The few pieces of Ruby's String and Integer behaviour that rrule.rb relies
    on: decimal printing (`Integer#to_s`), lenient conversion (`String#to_i`),
    `String#split(",")` and `Array#join`. */
module Strings {

  predicate IsDigit(c: char) {
    '0' <= c <= '9'
  }

  predicate AllDigits(s: string) {
    forall i :: 0 <= i < |s| ==> IsDigit(s[i])
  }

  /** True when `sep` does not occur in `s`. */
  predicate Free(s: string, sep: char) {
    forall i :: 0 <= i < |s| ==> s[i] != sep
  }

  function DigitValue(c: char): nat
    requires IsDigit(c)
  {
    c as int - '0' as int
  }

  function DigitChar(d: nat): (c: char)
    requires d < 10
    ensures IsDigit(c) && DigitValue(c) == d
  {
    ('0' as int + d) as char
  }

  /** The number a string of decimal digits denotes (most significant first). */
  function DigitsValue(s: string): nat
    requires AllDigits(s)
  {
    if |s| == 0 then 0 else 10 * DigitsValue(s[..|s| - 1]) + DigitValue(s[|s| - 1])
  }

  /** `Integer#to_s` on a non-negative integer: the shortest decimal numeral. */
  function NatToString(n: nat): (s: string)
    ensures |s| >= 1 && AllDigits(s)
    ensures DigitsValue(s) == n
    ensures s[0] == '0' ==> n == 0
    ensures s[0] == '0' ==> s == "0"
  {
    if n < 10 then [DigitChar(n)]
    else
      var s := NatToString(n / 10) + [DigitChar(n % 10)];
      assert s[..|s| - 1] == NatToString(n / 10);
      s
  }

  /** `Integer#to_s` on any integer. */
  function IntToString(i: int): (s: string)
    ensures |s| >= 1
  {
    if i < 0 then "-" + NatToString(-i) else NatToString(i)
  }

  // ---------------------------------------------------------------------------
  // String#to_i

  /** Ruby's ISSPACE: space, tab, line feed, vertical tab, form feed, carriage return. */
  predicate IsSpace(c: char) {
    c == ' ' || 9 <= c as int <= 13
  }

  function DropSpaces(s: string): (t: string)
    ensures |t| <= |s| && t == s[|s| - |t|..]
    ensures |t| > 0 ==> !IsSpace(t[0])
  {
    if |s| > 0 && IsSpace(s[0]) then DropSpaces(s[1..]) else s
  }

  /** The digits of the leading numeral of `s`, where one underscore between
      two digits is skipped and anything else ends the numeral. */
  function LeadingDigits(s: string): (d: string)
    ensures AllDigits(d) && |d| <= |s|
  {
    if |s| == 0 || !IsDigit(s[0]) then ""
    else if |s| >= 3 && s[1] == '_' && IsDigit(s[2]) then [s[0]] + LeadingDigits(s[2..])
    else [s[0]] + LeadingDigits(s[1..])
  }

  /** `String#to_i`: never fails; text without a leading numeral converts to 0. */
  function ToI(s: string): int {
    var t := DropSpaces(s);
    if |t| > 0 && t[0] == '-' then 0 - DigitsValue(LeadingDigits(t[1..])) as int
    else if |t| > 0 && t[0] == '+' then DigitsValue(LeadingDigits(t[1..]))
    else DigitsValue(LeadingDigits(t))
  }

  lemma {:induction false} LeadingDigitsOfDigits(s: string)
    requires AllDigits(s)
    ensures LeadingDigits(s) == s
    decreases |s|
  {
    if |s| > 0 {
      LeadingDigitsOfDigits(s[1..]);
    }
  }

  lemma {:induction false} LeadingDigitsStop(s: string, tail: string)
    requires AllDigits(s)
    requires |tail| == 0 || (!IsDigit(tail[0]) && tail[0] != '_')
    ensures LeadingDigits(s + tail) == s
    decreases |s|
  {
    if |s| > 0 {
      assert (s + tail)[1..] == s[1..] + tail;
      LeadingDigitsStop(s[1..], tail);
    } else {
      assert s + tail == tail;
    }
  }

  /** On a string of digits `to_i` is the plain decimal value, so the `\d+`
      fields of an RRULE convert exactly. */
  lemma ToIOfDigits(s: string)
    requires AllDigits(s) && |s| > 0
    ensures ToI(s) == DigitsValue(s)
  {
    assert IsDigit(s[0]);
    UnsignedToI(s);
    LeadingDigitsOfDigits(s);
  }

  /** Text starting with a digit converts its leading numeral unsigned. */
  lemma UnsignedToI(s: string)
    requires |s| > 0 && IsDigit(s[0])
    ensures ToI(s) == DigitsValue(LeadingDigits(s))
  {
    NoLeadingSpace(s);
  }

  lemma NoLeadingSpace(s: string)
    requires |s| > 0 && !IsSpace(s[0])
    ensures DropSpaces(s) == s
  {
  }

  /** A minus sign before digits negates their value. */
  lemma ToIOfNegative(d: string)
    requires AllDigits(d) && |d| > 0
    ensures ToI("-" + d) == 0 - DigitsValue(d)
  {
    var t := "-" + d;
    NoLeadingSpace(t);
    assert t[1..] == d;
    LeadingDigitsOfDigits(d);
  }

  /** `to_i` inverts `Integer#to_s`. */
  lemma ToIOfIntToString(i: int)
    ensures ToI(IntToString(i)) == i
  {
    if i < 0 {
      ToIOfNegative(NatToString(-i));
    } else {
      ToIOfDigits(NatToString(i));
    }
  }

  // ---------------------------------------------------------------------------
  // Splitting and joining

  /** `parts` joined with `sep` between neighbours (`Array#join`). */
  function Join(parts: seq<string>, sep: char): string
  {
    if |parts| == 0 then ""
    else if |parts| == 1 then parts[0]
    else parts[0] + [sep] + Join(parts[1..], sep)
  }

  /** A join begins with its first part. */
  lemma JoinHead(parts: seq<string>, sep: char)
    requires |parts| >= 1
    ensures |parts[0]| <= |Join(parts, sep)| && Join(parts, sep)[..|parts[0]|] == parts[0]
  {
    if |parts| > 1 {
      assert Join(parts, sep) == parts[0] + ([sep] + Join(parts[1..], sep));
    }
  }

  /** Every field between separators, empty ones included. */
  function Fields(s: string, sep: char): (r: seq<string>)
    ensures |r| >= 1
    ensures forall i :: 0 <= i < |r| ==> Free(r[i], sep)
    ensures Join(r, sep) == s
  {
    if |s| == 0 then [""]
    else
      var rest := Fields(s[1..], sep);
      if s[0] == sep then
        assert [""] + rest == [""] + [rest[0]] + rest[1..];
        [""] + rest
      else
        var r := [[s[0]] + rest[0]] + rest[1..];
        assert r[1..] == rest[1..];
        r
  }

  /** Drops the empty strings at the end of `fs`. */
  function DropTrailingEmpty(fs: seq<string>): (r: seq<string>)
    ensures |r| <= |fs| && r == fs[..|r|]
    ensures |r| > 0 ==> |r[|r| - 1]| > 0
    ensures forall i :: |r| <= i < |fs| ==> fs[i] == ""
  {
    if |fs| == 0 then []
    else if fs[|fs| - 1] == "" then DropTrailingEmpty(fs[..|fs| - 1])
    else fs
  }

  /** `String#split(sep)` with a one-character separator: the fields, with the
      empty fields at the end removed (so `"".split(",")` is `[]`). */
  function Split(s: string, sep: char): seq<string> {
    DropTrailingEmpty(Fields(s, sep))
  }

  lemma {:induction false} FieldsOfJoin(parts: seq<string>, sep: char)
    requires |parts| >= 1
    requires forall i :: 0 <= i < |parts| ==> Free(parts[i], sep)
    ensures Fields(Join(parts, sep), sep) == parts
    decreases |parts|, |parts[0]|
  {
    var p := parts[0];
    if |parts| == 1 {
      if |p| > 0 {
        assert p[1..] == Join([p[1..]], sep);
        FieldsOfJoin([p[1..]], sep);
        assert [p[0]] + p[1..] == p;
      }
    } else if |p| == 0 {
      var j := Join(parts, sep);
      assert j == [sep] + Join(parts[1..], sep);
      assert j[1..] == Join(parts[1..], sep);
      FieldsOfJoin(parts[1..], sep);
      assert [""] + parts[1..] == parts;
    } else {
      var shorter := [p[1..]] + parts[1..];
      assert shorter[1..] == parts[1..];
      assert Join(parts, sep)[1..] == Join(shorter, sep);
      FieldsOfJoin(shorter, sep);
      assert [p[0]] + p[1..] == p;
      assert [p] + parts[1..] == parts;
    }
  }

  /** `split` undoes `join` when no part is empty or holds the separator. */
  lemma SplitOfJoin(parts: seq<string>, sep: char)
    requires forall i :: 0 <= i < |parts| ==> Free(parts[i], sep) && |parts[i]| > 0
    ensures Split(Join(parts, sep), sep) == parts
  {
    if |parts| > 0 {
      FieldsOfJoin(parts, sep);
    }
  }
}
